=== FILE: README.md ===
# TaskFlow core, modelled in Dafny

TaskFlow is a project and task tracker. It is a React front end with a Redux store, backed by a hosted record database that it reaches through the Apper SDK. This project models the parts of it that decide values. The rendering, the network and the SDK are not modelled.

- **The projects slice of the store.** This is the project list with its `status`, `error` and `currentProject`. It is a class whose methods are the reducer cases. Each method states the whole new state. Beside it sit:
  - the database-to-front-end mapping of a project record;
  - the first-match search by id;
  - the selectors;
  - the guards of the `updateProject`, `fetchProjectById` and `deleteProject` thunks.
- **Record shaping in the three services (projects, tasks, calendar events).** This covers:
  - the `getUpdateableFields` whitelist loop, proved against a map comprehension;
  - the records each create or update sends, with their `||` defaults;
  - the fetch queries;
  - the rule that a create or update succeeds only on a reply that has `success` and a non-empty `results`;
  - the `[]` and `null` fallbacks of the fetches.
- **The project form.** This covers:
  - the form's starting values, where the team is joined with `", "`;
  - required-field validation;
  - the per-field edit handler, which clears that field's error;
  - submission, which parses the team text with `split(',')`, `trim()` and a truthiness filter.

  Joining clean names and parsing them back gives the same list.
- **The two dashboard panels.**
  - The headline panel computes task totals, a completion rate rounded half-up and the deadlines of the next seven days. From these it picks one of three states and its texts.
  - The featured section takes the urgent, behind-schedule and low-completion projects and removes duplicate ids, keeping the first. It sorts by due date and keeps at most three, each with an icon and a days-left badge.

JavaScript values are modelled as a `Value` datatype (`values.dfy`). Truthiness, `||` defaults and numeric comparison are written out explicitly, and NaN compares false. Numbers are integers. A date is a whole day number whose day starts at `Midnight(day)` milliseconds. "Now" is an instant in milliseconds, passed in as a parameter. Records are `map<string, Value>`. As in JavaScript, a key stays present when its value is `undefined`.

Small predicates and helpers that only name a source expression have no row of their own; the lemmas named here state their meaning. `MainFeature.DueThisWeek` (the filter at `MainFeature.jsx:29-32`) is stated by `MainFeature.UpcomingDeadlinesSpec`. `FeatureSection.KeepFirst` is stated by `FeatureSection.KeepFirstMembers` and `FeatureSection.DedupSpec`. `Text.TrimAll` is stated by `Text.TrimAllEach`. The template interpolations `Text.NatToString` and `Text.IntToString` are stated by `Text.NatToStringValue` and `Text.IntToStringValue`. `DueOrder.HasKey` is stated by `DueOrder.SortByDueStable`.

Modules:

| module | file | models |
|---|---|---|
| `Values` | `values.dfy` | values and coercions |
| `Seqs` | `seqs.dfy` | `Array.prototype.filter` |
| `Records` | `records.dfy` | records, the whitelist loop, SDK replies, queries |
| `ProjectService` | `project_service.dfy` | `projectService.js` |
| `TaskService` | `task_service.dfy` | `taskService.js` |
| `CalendarEventService` | `calendar_event_service.dfy` | `calendarEventService.js` |
| `ProjectsSlice` | `projects_slice.dfy` | `projectsSlice.js` |
| `Text` | `text.dfy` | `trim`, `split`, `join`, number formatting |
| `ProjectForm` | `project_form.dfy` | `ProjectForm.jsx` |
| `DueOrder` | `due_order.dfy` | the due-date sort both dashboards use |
| `MainFeature` | `main_feature.dfy` | `MainFeature.jsx` |
| `FeatureSection` | `feature_section.dfy` | `FeatureSection.jsx` |

## Model

| member | source | states |
|---|---|---|
| Records.FilterFields | src/services/projectService.js:19-26 | The key-by-key loop copies exactly the keys of the record that the whitelist names. Their values are unchanged. The loop invariant is "the keys seen so far, restricted". |
| Records.RestrictSpec | src/services/taskService.js:20-27 | A key survives the filter iff it is in the record and whitelisted, and it keeps its value. |
| Records.RestrictIdempotent | src/services/calendarEventService.js:21-28 | Filtering an already-filtered record changes nothing. |
| Records.RestrictKeepsAllowed | src/services/projectService.js:19-26 | A record whose keys are all whitelisted passes through unchanged. |
| Records.FirstResultData | src/services/projectService.js:103-107 | Success iff the response exists, `success` is truthy and `results` is present and non-empty. The value is then the first result's `data`; otherwise the call throws with the given message. |
| Records.DeleteResult | src/services/projectService.js:129 | What `deleteProject` and `deleteCalendarEvent` return is truthy iff there is a reply and its `success` is truthy. With a reply it is that `success` value. |
| ProjectService.GetUpdateableFields | src/services/projectService.js:6-27 | Keeps exactly the nine whitelisted project fields with their values. `Id` and `CreatedOn` never get through. |
| ProjectService.MappedProject | src/services/projectService.js:87-95 | The record has exactly seven keys. `Name` comes from `name`. The three counts default to 0 when falsy. Description, due date and team pass through. |
| ProjectService.MappedProjectSurvivesFilter | src/services/projectService.js:97 | The whitelist drops nothing from the mapped project. |
| ProjectService.CreateNewProject | src/services/projectService.js:78-112 | The record sent equals the mapped project. The result is the first result's data on a successful reply; otherwise it throws "Failed to create project". |
| ProjectService.FetchProjectsResult | src/services/projectService.js:49 | The reply's data, or `[]` when that is falsy. |
| ProjectService.FetchProjectByIdResult | src/services/projectService.js:67-68 | The reply's data, or `null` when that is falsy. The result is truthy iff the data is. |
| ProjectService.FetchProjectsQuery | src/services/projectService.js:40-47 | Every field a create or update can write is read back, and `CreatedOn` too. Newest first, with no filter and no expansion. The other fields read back (`Tags`, `Owner`, `ModifiedOn` and the rest) are not stated. |
| TaskService.GetUpdateableFields | src/services/taskService.js:6-28 | Keeps exactly the ten whitelisted task fields with their values. `Id` is dropped. |
| TaskService.MappedNewTask | src/services/taskService.js:84-93 | `Name` and `title` both come from `title`, and `project` from `projectId`. Status defaults to "Not Started" and priority to "Medium" when falsy. |
| TaskService.MappedTaskUpdate | src/services/taskService.js:124-134 | The update record carries `Id` and applies no defaults. |
| TaskService.CreateTask | src/services/taskService.js:75-110 | Sends the mapped task, which the whitelist leaves whole. Succeeds with the first result's data; otherwise throws "Failed to create task". |
| TaskService.UpdateTask | src/services/taskService.js:115-152 | The filter drops `Id` and the service adds it back, so the record sent is the full update record with `Id` = the task id and status and priority as given. On failure it throws "Failed to update task". |
| TaskService.FetchTasksQuery | src/services/taskService.js:41-62 | Every writable task field is read back. Newest first, with the project expanded. There is a `where` iff `projectId` is truthy, and then it is exactly one ExactMatch on `project`. |
| CalendarEventService.GetUpdateableFields | src/services/calendarEventService.js:6-29 | Keeps exactly the eleven whitelisted event fields with their values. |
| CalendarEventService.MappedEvent | src/services/calendarEventService.js:97-107 | `start`/`end` are renamed to `startDate`/`endDate`. `allDay` defaults to false and `attendees` to `[]`. `projectId` and `taskId` become `relatedProject` and `relatedTask`. |
| CalendarEventService.CreateCalendarEvent | src/services/calendarEventService.js:88-124 | Sends the mapped event. Succeeds with the first result's data; otherwise throws "Failed to create calendar event". |
| CalendarEventService.FetchEventsQuery | src/services/calendarEventService.js:42-75 | No query is built iff both bounds are truthy and one is not a `Date`: `toISOString` then throws. Otherwise every writable event field is read back, earliest start first, with both relations expanded. There is an AND group iff both bounds are truthy; it bounds `startDate` from below and from above. |
| ProjectsSlice.ToProject | src/features/projects/projectsSlice.js:111-121 | Each front-end field comes from its database field. Counts default to 0 and the team to `[]` when falsy. |
| ProjectsSlice.ToProjectNormalises | src/features/projects/projectsSlice.js:137-147 | After mapping, every count is truthy or 0 and the team is truthy. |
| ProjectsSlice.FindIndexById | src/features/projects/projectsSlice.js:189 | Returns the first position with that id; none iff no project has it. |
| ProjectsSlice.RemoveById | src/features/projects/projectsSlice.js:218 | No project with the id survives, and the list never grows. |
| ProjectsSlice.RemoveByIdSpec | src/features/projects/projectsSlice.js:218 | Every project with the id is removed. Every other project keeps its multiplicity and relative order. |
| ProjectsSlice.SelectAllProjects | src/features/projects/projectsSlice.js:235 | The list, or `[]` when there is none. |
| ProjectsSlice.SelectProjectById | src/features/projects/projectsSlice.js:237-238 | The first project with the id; none iff no project has it. |
| ProjectsSlice.ProjectsState.constructor | src/features/projects/projectsSlice.js:9-14 | The initial state: an empty list, idle, no error, no current project. |
| ProjectsSlice.ProjectsState.UpdateProjectStatus | src/features/projects/projectsSlice.js:89-91 | Only the status changes. |
| ProjectsSlice.ProjectsState.SetCurrentProject | src/features/projects/projectsSlice.js:93-95 | Only the current project changes. |
| ProjectsSlice.ProjectsState.ClearCurrentProject | src/features/projects/projectsSlice.js:97-99 | The current project becomes null; nothing else changes. |
| ProjectsSlice.ProjectsState.Pending | src/features/projects/projectsSlice.js:104-107 | Loading with no error. The list and the current project are untouched. |
| ProjectsSlice.ProjectsState.FetchAllRejected | src/features/projects/projectsSlice.js:123-126 | Failed, with the error taken from the thrown error's message. |
| ProjectsSlice.ProjectsState.Rejected | src/features/projects/projectsSlice.js:149-152 | Failed. The error is the reject payload when it is non-empty, else the thrown message. |
| ProjectsSlice.ProjectsState.FetchAllFulfilled | src/features/projects/projectsSlice.js:108-122 | The list becomes the payload mapped element by element, with the same length. |
| ProjectsSlice.ProjectsState.FetchByIdFulfilled | src/features/projects/projectsSlice.js:133-148 | The current project becomes the mapped payload; the list is untouched. |
| ProjectsSlice.ProjectsState.CreateFulfilled | src/features/projects/projectsSlice.js:159-174 | The mapped project goes in front and every other project shifts up one. |
| ProjectsSlice.ProjectsState.UpdateFulfilled | src/features/projects/projectsSlice.js:185-204 | The first project with the payload's `Id` is replaced and no other changes. Nothing changes when no project has that id. |
| ProjectsSlice.ProjectsState.DeleteFulfilled | src/features/projects/projectsSlice.js:215-223 | Every project with the id leaves the list. The current project is cleared exactly when it has that id. |
| ProjectsSlice.FetchAllProjectsThunk | src/features/projects/projectsSlice.js:17-19 | Fulfilled iff the service returns, with its result as the payload. A thrown error rejects with its message. |
| ProjectsSlice.UpdateProjectThunk | src/features/projects/projectsSlice.js:54-69 | A falsy `id` is rejected with "Project ID is required for updates". Otherwise the result is the service's value. A thrown error rejects with its message, or with "Failed to update project" when the message is empty. |
| ProjectsSlice.UpdateWithoutIdCallsNoService | src/features/projects/projectsSlice.js:59-61 | Without an id the outcome does not depend on the service. |
| ProjectsSlice.FetchProjectByIdThunk | src/features/projects/projectsSlice.js:22-35 | A falsy result is rejected as "Project not found". A fulfilled payload is always truthy. A thrown error rejects with its message, or with "Failed to fetch project" when the message is empty. |
| ProjectsSlice.DeleteProjectThunk | src/features/projects/projectsSlice.js:72-82 | Fulfilled with the deleted id once the service returns, whatever it returns. A thrown error rejects with its message, or with "Failed to delete project" when the message is empty. |
| Seqs.FilterMembers | src/components/MainFeature.jsx:29-32 | `filter` keeps exactly the elements that pass and never lengthens the list. |
| Seqs.FilterCounts | src/components/FeatureSection.jsx:24-30 | `filter` keeps each passing element exactly as often as it occurs. |
| Seqs.FilterOrder | src/features/projects/projectsSlice.js:218 | `filter` keeps the passing elements in their original order. |
| Seqs.FilterAppend | src/components/FeatureSection.jsx:53 | Filtering a concatenation gives the filtered parts one after the other. |
| Seqs.FilterKeepsAll | src/components/projects/ProjectForm.jsx:55 | A filter that every element passes returns the list unchanged. |
| Text.Trim | src/components/projects/ProjectForm.jsx:54 | `trim()` leaves no white space at either end and never lengthens the string. |
| Text.TrimSpec | src/components/projects/ProjectForm.jsx:23-24 | `trim()` returns a slice of the string with only white space outside it. That slice has no white space at either end. A string already without it is returned unchanged. |
| Text.TrimBlank | src/components/projects/ProjectForm.jsx:23-24 | A string trims to "" iff every character in it is white space. |
| Text.Split | src/components/projects/ProjectForm.jsx:53 | `split(',')` always gives at least one piece. |
| Text.SplitCount | src/components/projects/ProjectForm.jsx:53 | `split(',')` gives one more piece than there are commas. |
| Text.SplitCommaFree | src/components/projects/ProjectForm.jsx:53 | No piece of `split(',')` contains a comma. |
| Text.SplitJoin | src/components/projects/ProjectForm.jsx:53 | Joining the pieces with `,` rebuilds the input. |
| Text.Join | src/components/projects/ProjectForm.jsx:15 | `join` text starts with the first part. |
| Text.TrimAll | src/components/projects/ProjectForm.jsx:54 | `map(m => m.trim())` gives one piece per piece. |
| Text.TrimAllEach | src/components/projects/ProjectForm.jsx:54 | Each piece of `map(m => m.trim())` is the trimmed input piece at the same place. |
| Text.ParseNames | src/components/projects/ProjectForm.jsx:52-55 | No team name is empty, and there are no more names than pieces. |
| Text.ParseNamesSpec | src/components/projects/ProjectForm.jsx:52-55 | The team names are non-empty and trimmed. There are at most commas + 1 of them, in input order. Every non-empty trimmed piece is kept exactly as often as it occurs, and nothing else is kept. |
| Text.NatToStringValue | src/components/MainFeature.jsx:76 | `${n}` for a whole number is a non-empty string of decimal digits denoting `n`, with no leading zero from 10 on. |
| Text.IntToStringValue | src/components/MainFeature.jsx:69 | `${i}` starts with a minus sign iff `i` is negative, and the digits that follow denote the magnitude of `i`. |
| Text.ParseJoinRoundTrip | src/components/projects/ProjectForm.jsx:15 | Parsing the `", "`-joined text of non-empty, trimmed, comma-free names gives back the same list. |
| ProjectForm.WithField | src/components/projects/ProjectForm.jsx:33-36 | Only the edited field changes. |
| ProjectForm.InitialFormData | src/components/projects/ProjectForm.jsx:11-16 | Name, description and due date start as the project's own values, or empty when it has none. An existing team is shown joined with `", "`, and a missing one as empty. |
| ProjectForm.InitialTeamRoundTrip | src/components/projects/ProjectForm.jsx:15 | A clean team shown in the form is submitted back unchanged. |
| ProjectForm.ValidationErrors | src/components/projects/ProjectForm.jsx:21-29 | There is an error for the name and for the description iff they are blank after trimming, and for the due date iff it is empty. The team never has one. There are no errors iff all three are present. |
| ProjectForm.FormState.constructor | src/components/projects/ProjectForm.jsx:11-19 | The form starts with the project's initial data and no errors. |
| ProjectForm.FormState.Validate | src/components/projects/ProjectForm.jsx:21-29 | Records exactly those errors and returns true iff there are none. The form data is untouched. |
| ProjectForm.FormState.HandleChange | src/components/projects/ProjectForm.jsx:31-45 | Stores the value. A shown error on that field becomes null; every other error is kept. |
| ProjectForm.FormState.HandleSubmit | src/components/projects/ProjectForm.jsx:47-62 | Submits iff validation passes. The submission carries the fields with the team parsed into names. |
| DueOrder.Insert | src/components/FeatureSection.jsx:59-62 | Inserting adds one entry: the new project joins the list's projects. |
| DueOrder.SortByDue | src/components/FeatureSection.jsx:59-62 | Sorting keeps the length and exactly the same projects. |
| DueOrder.InsertSpec | src/components/FeatureSection.jsx:59-62 | Inserting into a due-sorted list keeps it sorted and adds exactly that project. |
| DueOrder.SortByDueSpec | src/components/FeatureSection.jsx:59-63 | The sort is a permutation. Its result puts dated projects earliest first and the undated ones after. |
| DueOrder.InsertFilter | src/components/FeatureSection.jsx:59-62 | An inserted project lands in front of every project with the same due key and changes the order of no other projects. |
| DueOrder.SortByDueStable | src/components/FeatureSection.jsx:59-62 | The sort is stable, as `sort` is: the projects sharing a due key keep the order they had. With `SortByDueSpec`, this fixes the result completely. |
| MainFeature.CompletedTasks | src/components/MainFeature.jsx:20 | The total is 0 for no projects and never negative when no count is. With `TotalsOfOne` and `TotalsAppend` it is the sum over the projects of `completedTasks`, a falsy one read as 0. |
| MainFeature.TotalTasks | src/components/MainFeature.jsx:21 | The total is 0 for no projects and never negative when no count is. With `TotalsOfOne` and `TotalsAppend` it is the sum over the projects of `tasks`, a falsy one read as 0. |
| MainFeature.TotalsOfOne | src/components/MainFeature.jsx:20-21 | A single project contributes exactly its own counts. A falsy count contributes 0, a number itself and `true` 1 (`Values.CountOf`). |
| MainFeature.TotalsAppend | src/components/MainFeature.jsx:20-21 | Both totals add up list by list: the totals of two lists put together are the sums of their totals. |
| MainFeature.TotalsConsistent | src/components/MainFeature.jsx:20-21 | If every project has 0 ≤ completed ≤ tasks, the totals satisfy 0 ≤ completed ≤ total. |
| MainFeature.CompletionRate | src/components/MainFeature.jsx:22 | The rate is the nearest integer to 100·completed/total, with halves rounded up. It is 0 when there are no tasks. |
| MainFeature.RateIsPercentage | src/components/MainFeature.jsx:22 | With 0 ≤ completed ≤ total, the rate lies in 0..100. |
| MainFeature.OverallRateIsPercentage | src/components/MainFeature.jsx:19-22 | If every project is consistent, the panel's rate lies in 0..100. |
| MainFeature.UpcomingDeadlines | src/components/MainFeature.jsx:29-33 | Every deadline shown is a listed project due this week. There are never more deadlines than projects. |
| MainFeature.UpcomingDeadlinesSpec | src/components/MainFeature.jsx:24-33 | The deadlines are exactly the projects due between now and a week on, each as often as listed, in ascending due day. |
| MainFeature.ChooseState | src/components/MainFeature.jsx:36-41 | Success iff the rate is ≥ 70. Warning iff it is below 70 with a deadline this week. Neutral otherwise. |
| MainFeature.FeatureStateOf | src/components/MainFeature.jsx:36-41 | Success iff the overall rate is ≥ 70. Warning iff it is below 70 and some listed project is due this week. Neutral iff it is below 70 and none is. |
| MainFeature.WarningText | src/components/MainFeature.jsx:69 | "project" takes an "s" only for more than one deadline. |
| MainFeature.NeutralText | src/components/MainFeature.jsx:76 | "project" takes an "s" for every count except 1. |
| MainFeature.Content | src/components/MainFeature.jsx:56-80 | The progress button appears iff the rate is ≥ 70. The deadlines button appears iff the rate is below 70 and something is due this week. The create button appears otherwise. Each comes with its title and description. |
| FeatureSection.DaysLeft | src/components/FeatureSection.jsx:27-28 | The days left, rounded up: the due midnight lies in the last of that many whole days from now. It is NaN (none) for a non-date. |
| FeatureSection.Urgent | src/components/FeatureSection.jsx:24-30 | Urgent iff the due date is a date whose midnight is at most seven whole days after now, and progress is below 50. |
| FeatureSection.LowCompletion | src/components/FeatureSection.jsx:45-50 | Low iff the task count is a number above 2 and 100·completed < 30·tasks with a numeric completed count. The falsy and zero guards decide nothing on their own. |
| FeatureSection.Combined | src/components/FeatureSection.jsx:53 | The urgent, behind-schedule and low-completion lists, one after the other. So each project occurs once for every criterion it meets, times as often as it is listed. |
| FeatureSection.CombinedMembers | src/components/FeatureSection.jsx:24-53 | The combined list holds exactly the projects that are urgent, behind schedule or low in completion. |
| FeatureSection.KeepFirstMembers | src/components/FeatureSection.jsx:54-56 | Within the first n entries, an entry is kept iff it is the first project of its id. |
| FeatureSection.KeepFirstUnique | src/components/FeatureSection.jsx:54-56 | The kept entries have pairwise distinct ids, and none is repeated. |
| FeatureSection.Dedup | src/components/FeatureSection.jsx:54-56 | Deduplication never lengthens the list and keeps only entries from it. |
| FeatureSection.KeepFirst | src/components/FeatureSection.jsx:54-56 | Looking at the first n entries keeps at most n of them. Which ones is stated by `KeepFirstMembers`. |
| FeatureSection.DedupSpec | src/components/FeatureSection.jsx:53-56 | Dedup keeps exactly the first project of every id, in the original order. No id is lost and none appears twice. |
| FeatureSection.TakeThree | src/components/FeatureSection.jsx:63 | `slice(0, 3)` is a prefix of length min(3, n). |
| FeatureSection.Featured | src/components/FeatureSection.jsx:59-63 | min(3, number of distinct ids needing attention) projects are shown. Each is from the store and needs attention. |
| FeatureSection.TakeThreeSpec | src/components/FeatureSection.jsx:59-63 | The first three entries of a sorted, id-unique list stay sorted and unique. They are due no later than anything left out, and are empty only for an empty list. |
| FeatureSection.FeaturedSpec | src/components/FeatureSection.jsx:19-71 | The section shows min(3, number of distinct ids needing attention) projects, each from the store and needing attention. No id appears twice and the list is in due order. Nothing left out is due earlier. The section is empty iff no project needs attention. |
| FeatureSection.FeaturedEmpty | src/components/FeatureSection.jsx:53-69 | Nothing is featured iff no project needs attention. |
| FeatureSection.IconFor | src/components/FeatureSection.jsx:73-85 | The alert icon shows with no due date or ≤ 3 days left, and the clock for 4 to 7 days. Otherwise the pull-request icon shows iff progress < 30, else the target. |
| FeatureSection.UrgentIcon | src/components/FeatureSection.jsx:24-30 | An urgent project always shows the alert or the clock. |
| FeatureSection.BadgeText | src/components/FeatureSection.jsx:98-114 | "No due date", "Overdue!" once no whole day is left, otherwise the number of days left. A non-date shows NaN. |
| FeatureSection.OverdueShowsAlert | src/components/FeatureSection.jsx:81 | An "Overdue!" badge comes with the alert icon and a due midnight no later than now. |
| FeatureSection.View | src/components/FeatureSection.jsx:69-71 | Nothing is rendered iff no project needs attention. Otherwise there are one to three cards, one per featured project in order. |

## Left out

- The SDK calls themselves, `window.ApperSDK`, `import.meta.env` and `console` logging are not modelled. Each SDK reply is a parameter (`Response`, `FetchResponse`). A thunk's service call is an `Outcome` parameter, which either returns a value or throws with a message.
- The Redux Toolkit machinery is not modelled: action creation, immer drafts and the dispatch order of thunks. `createProject` dispatches `updateProjectStatus` around its service call, and that interleaving is not modelled. Each reducer case is one method.
- Selectors `selectCurrentProject`, `selectProjectStatus` and `selectProjectError` only read one field; they are the class's fields.
- `fetchAllProjects` is closed with `};` instead of `});` at `src/features/projects/projectsSlice.js:19`. The file does not parse as written. The model follows the evident intent in `ProjectsSlice.FetchAllProjectsThunk`: the thunk settles with the service's result.
- `src/features/projects/projectsSlice.js:7` imports `updateProject` from the project service, which exports no such function. The model takes the update service as the `service` parameter of `UpdateProjectThunk`.
- Dates:
  - Dates are whole day numbers starting at UTC midnight. Time zones and daylight-saving shifts are not modelled.
  - A due date that is neither missing nor a parseable date is not a date. That includes a number, which `new Date` would accept as milliseconds, and `true`, which `new Date` reads as 1 millisecond.
  - Each `new Date()` in a component is one `now` parameter shared across the component.
- FeatureSection.NeedsAttention: `behindSchedule` compares fractional durations, so it is left out and enters as the predicate parameter `isBehind`.
- Numbers and coercion:
  - Numbers are integers; non-integer counts and progress values are not modelled.
  - `Values.ToNumber` treats every non-empty string as NaN, whereas JavaScript reads numeric strings such as `"5"` as numbers.
  - `Values.ToNumber` also treats a date and a list as NaN. JavaScript compares a `Date` by its millisecond value and a list by the number its joined text reads as, so `[] < 50` is true there and false in the model. Only a progress or count field holding such a value reaches this.
- Values.CountOf: a count that is a non-empty string, a date or a list counts as 0. In JavaScript, adding such a value turns the sum into a string.
- CalendarEventService.FetchEventsQuery: a `Date(day)` bound stands for a `Date` object. A date string would also make `toISOString` throw, and the model does not tell it apart. The conditions carry the bound itself, not the ISO text `toISOString()` makes of it.
- MainFeature.CompletionRate: computes the exact half-up rounding of `Math.round(c / t * 100)`. In floating point the product can fall just below an exact half, so the source shows 57 for 23 of 40 tasks, where the model gives 58.
- FeatureSection.LowCompletion: the comparison `c / t * 100 < 30` is modelled exactly as `100·c < 30·t`, without floating-point rounding.
- DueOrder.SortByDueStable: the model keeps projects without a date in their input order. The source's comparator returns 1 whenever the first one lacks a date. That is inconsistent for two undated projects, so the engine decides their order in the source.
- DueOrder.SortByDueSpec: a truthy due date that is not a date (a string such as "soon") is ranked with the undated projects, after every dated one. The source's comparator subtracts two `Date`s there and gets NaN, which `sort` treats as 0, "equal". So the source ranks such a project equal to every dated one, which is again an inconsistent comparator. With a = "soon" and b due on day 5, the source keeps [a, b] and the model gives [b, a]. So when such projects need attention, `FeatureSection.FeaturedSpec` can pick a different three than the source.
- The React component lifecycle is not modelled: `useEffect` timing and the initial empty `featuredProjects`. Neither is the `Cancel` button's `onSubmit(null)` in the form.
- `TaskForm.jsx`, the pages, the modals, `iconUtils.js` and `store.js` are not part of this model: they render or wire up, and decide no values.

=== FILE: calendar_event_service.dfy ===
/**
 * The calendar event service (src/services/calendarEventService.js): the
 * record it sends when creating an event, the fields it lets through, the
 * date-range query, and how it reads the SDK's reply.
 */
module CalendarEventService {
  import opened Values
  import opened Records

  /** The fields of the calendar_event table a write may set. */
  const UpdateableFields: seq<string> :=
    ["Name", "Tags", "Owner", "title", "description", "startDate", "endDate",
     "allDay", "attendees", "relatedTask", "relatedProject"]

  const CreateFailure := "Failed to create calendar event"

  /** The columns every event fetch asks for. */
  const FetchedFields: seq<string> :=
    ["Name", "Tags", "Owner", "CreatedOn", "CreatedBy", "ModifiedOn", "ModifiedBy",
     "title", "description", "startDate", "endDate", "allDay", "attendees",
     "relatedTask", "relatedProject"]

  /** `getUpdateableFields`: keep exactly the whitelisted keys, values unchanged. */
  method GetUpdateableFields(event: Record) returns (filtered: Record)
    ensures forall k :: k in filtered <==> k in event && k in UpdateableFields
    ensures forall k :: k in filtered ==> filtered[k] == event[k]
    ensures "Id" !in filtered && "start" !in filtered && "projectId" !in filtered
  {
    filtered := FilterFields(event, UpdateableFields);
  }

  /** The record `createCalendarEvent` builds from the form data before filtering it. */
  function MappedEvent(eventData: Record): (r: Record)
    ensures r.Keys == {"Name", "title", "description", "startDate", "endDate",
                       "allDay", "attendees", "relatedProject", "relatedTask"}
    ensures r["Name"] == r["title"] == Get(eventData, "title")
    ensures r["description"] == Get(eventData, "description")
    ensures r["startDate"] == Get(eventData, "start") && r["endDate"] == Get(eventData, "end")
    ensures r["allDay"] == if Truthy(Get(eventData, "allDay")) then Get(eventData, "allDay") else Bool(false)
    ensures r["attendees"] == if Truthy(Get(eventData, "attendees")) then Get(eventData, "attendees") else List([])
    ensures r["relatedProject"] == Get(eventData, "projectId") && r["relatedTask"] == Get(eventData, "taskId")
  {
    map[
      "Name" := Get(eventData, "title"),
      "title" := Get(eventData, "title"),
      "description" := Get(eventData, "description"),
      "startDate" := Get(eventData, "start"),
      "endDate" := Get(eventData, "end"),
      "allDay" := Or(Get(eventData, "allDay"), Bool(false)),
      "attendees" := Or(Get(eventData, "attendees"), List([])),
      "relatedProject" := Get(eventData, "projectId"),
      "relatedTask" := Get(eventData, "taskId")
    ]
  }

  /** `createCalendarEvent`: the record sent to the SDK and the created event's data. */
  method CreateCalendarEvent(eventData: Record, response: Option<Response>)
    returns (sent: Record, created: Outcome<Value>)
    ensures sent == MappedEvent(eventData)
    ensures created.Ok? <==>
      response.Some? && Truthy(response.value.success) &&
      response.value.results.Some? && |response.value.results.value| > 0
    ensures created.Ok? ==> created.value == response.value.results.value[0].data
    ensures created.Thrown? ==> created.message == CreateFailure
  {
    var mapped := MappedEvent(eventData);
    sent := GetUpdateableFields(mapped);
    RestrictKeepsAllowed(mapped, UpdateableFields);
    created := FirstResultData(response, CreateFailure);
  }

  /**
   * The query `fetchCalendarEvents` builds: earliest start first, with the
   * related project and task expanded and every writable field read back.
   * When both bounds are truthy it adds one AND group bounding `startDate`
   * from below and from above; a truthy bound that is not a `Date` has no
   * `toISOString`, so the call throws before any query is sent (`None`).
   */
  method FetchEventsQuery(startDate: Value, endDate: Value) returns (params: Option<Query>)
    ensures params.None? <==> Truthy(startDate) && Truthy(endDate) && !(startDate.Date? && endDate.Date?)
    ensures params.Some? ==>
      && params.value.fields == FetchedFields
      && (forall f :: f in UpdateableFields ==> f in params.value.fields)
      && params.value.orderBy == [OrderBy("startDate", "ASC")]
      && params.value.expands == ["relatedProject", "relatedTask"]
      && params.value.where == None
      && (params.value.whereGroups.Some? <==> Truthy(startDate) && Truthy(endDate))
    ensures params.Some? && params.value.whereGroups.Some? ==>
      params.value.whereGroups.value == [WhereGroup("AND", [
        Condition("startDate", "GreaterThanOrEqual", [startDate]),
        Condition("startDate", "LessThanOrEqual", [endDate])])]
  {
    var query := Query(FetchedFields, [OrderBy("startDate", "ASC")], ["relatedProject", "relatedTask"], None, None);
    if Truthy(startDate) && Truthy(endDate) {
      if !startDate.Date? || !endDate.Date? {
        return None;
      }
      query := query.(whereGroups := Some([WhereGroup("AND", [
        Condition("startDate", "GreaterThanOrEqual", [startDate]),
        Condition("startDate", "LessThanOrEqual", [endDate])])]));
    }
    params := Some(query);
  }
}

=== FILE: due_order.dfy ===
/**
 * Ordering projects by due date, as both dashboard components sort them:
 * dated projects first, earliest due day first, then the undated ones.
 */
module DueOrder {
  import opened ProjectsSlice
  import Seqs

  /** Where a project sorts: its due day, or after every dated project. */
  datatype DueKey = Dated(day: int) | Undated

  function KeyOf(p: Project): DueKey {
    if p.dueDate.Date? then Dated(p.dueDate.day) else Undated
  }

  predicate KeyLe(a: DueKey, b: DueKey) {
    match a
    case Dated(x) => (match b case Dated(y) => x <= y case Undated => true)
    case Undated => b.Undated?
  }

  /** Every earlier project sorts no later than every later one. */
  predicate SortedByDue(s: seq<Project>) {
    forall i, j :: 0 <= i < j < |s| ==> KeyLe(KeyOf(s[i]), KeyOf(s[j]))
  }

  /** Put `p` in front of the first project that does not sort before it. */
  function Insert(p: Project, s: seq<Project>): (r: seq<Project>)
    ensures |r| == |s| + 1
    ensures forall x :: x in r <==> x == p || x in s
  {
    if s == [] then [p]
    else if KeyLe(KeyOf(p), KeyOf(s[0])) then [p] + s
    else [s[0]] + Insert(p, s[1..])
  }

  /** An insertion sort by due key; `SortByDueStable` shows it is stable. */
  function SortByDue(s: seq<Project>): (r: seq<Project>)
    ensures |r| == |s|
    ensures forall x :: x in r <==> x in s
  {
    if s == [] then [] else Insert(s[0], SortByDue(s[1..]))
  }

  lemma KeyLeTransitive(a: DueKey, b: DueKey, c: DueKey)
    requires KeyLe(a, b) && KeyLe(b, c)
    ensures KeyLe(a, c)
  {
  }

  /** No project sorts before `b`'s key. */
  predicate AllFrom(b: DueKey, s: seq<Project>) {
    forall x :: x in s ==> KeyLe(b, KeyOf(x))
  }

  lemma SortedSplit(s: seq<Project>)
    requires s != [] && SortedByDue(s)
    ensures SortedByDue(s[1..]) && AllFrom(KeyOf(s[0]), s[1..])
  {
    assert forall i :: 0 <= i < |s[1..]| ==> s[1..][i] == s[i + 1];
  }

  lemma SortedJoin(x: Project, t: seq<Project>)
    requires SortedByDue(t) && AllFrom(KeyOf(x), t)
    ensures SortedByDue([x] + t)
  {
    var r := [x] + t;
    forall i, j | 0 <= i < j < |r| ensures KeyLe(KeyOf(r[i]), KeyOf(r[j])) {
      assert r[j] == t[j - 1] && r[j] in t;
      if i > 0 {
        assert r[i] == t[i - 1];
      }
    }
  }

  lemma {:induction false} InsertSpec(p: Project, s: seq<Project>)
    requires SortedByDue(s)
    ensures multiset(Insert(p, s)) == multiset(s) + multiset{p}
    ensures SortedByDue(Insert(p, s))
  {
    if s == [] {
    } else if KeyLe(KeyOf(p), KeyOf(s[0])) {
      SortedSplit(s);
      forall x | x in s ensures KeyLe(KeyOf(p), KeyOf(x)) {
        if x != s[0] {
          assert x in s[1..] by { assert s == [s[0]] + s[1..]; }
          KeyLeTransitive(KeyOf(p), KeyOf(s[0]), KeyOf(x));
        }
      }
      SortedJoin(p, s);
    } else {
      SortedSplit(s);
      var tail := Insert(p, s[1..]);
      InsertSpec(p, s[1..]);
      assert s == [s[0]] + s[1..];
      forall x | x in tail ensures KeyLe(KeyOf(s[0]), KeyOf(x)) {
        assert x in multiset(tail);
      }
      SortedJoin(s[0], tail);
    }
  }

  /** Sorting yields the same projects, each as often, in due order. */
  lemma {:induction false} SortByDueSpec(s: seq<Project>)
    ensures multiset(SortByDue(s)) == multiset(s)
    ensures SortedByDue(SortByDue(s))
  {
    if s != [] {
      SortByDueSpec(s[1..]);
      InsertSpec(s[0], SortByDue(s[1..]));
      assert s == [s[0]] + s[1..];
    }
  }

  /** The projects whose due key is `k`. */
  function HasKey(k: DueKey): Project -> bool {
    (p: Project) => KeyOf(p) == k
  }

  lemma FilterSingle(p: Project, k: DueKey)
    ensures Seqs.Filter([p], HasKey(k)) == if KeyOf(p) == k then [p] else []
  {
    assert [p][..0] == [];
  }

  /**
   * `p` lands in front of every project with its own key: it passes only
   * projects that sort strictly before it.
   */
  lemma {:induction false} InsertFilter(p: Project, s: seq<Project>, k: DueKey)
    ensures Seqs.Filter(Insert(p, s), HasKey(k)) == Seqs.Filter([p], HasKey(k)) + Seqs.Filter(s, HasKey(k))
  {
    if s == [] {
      assert Seqs.Filter(s, HasKey(k)) == [];
    } else if KeyLe(KeyOf(p), KeyOf(s[0])) {
      Seqs.FilterAppend([p], s, HasKey(k));
    } else {
      InsertFilter(p, s[1..], k);
      Seqs.FilterAppend([s[0]], Insert(p, s[1..]), HasKey(k));
      Seqs.FilterAppend([s[0]], s[1..], HasKey(k));
      assert s == [s[0]] + s[1..];
      FilterSingle(p, k);
      FilterSingle(s[0], k);
      assert KeyOf(p) != KeyOf(s[0]);
    }
  }

  /**
   * The sort is stable, as `Array.prototype.sort` is: the projects sharing a
   * due key come out in the order they went in.
   */
  lemma {:induction false} SortByDueStable(s: seq<Project>, k: DueKey)
    ensures Seqs.Filter(SortByDue(s), HasKey(k)) == Seqs.Filter(s, HasKey(k))
  {
    if s != [] {
      SortByDueStable(s[1..], k);
      InsertFilter(s[0], SortByDue(s[1..]), k);
      Seqs.FilterAppend([s[0]], s[1..], HasKey(k));
      assert s == [s[0]] + s[1..];
    }
  }
}

=== FILE: feature_section.dfy ===
/**
 * The "Featured Projects" section of the dashboard
 * (src/components/FeatureSection.jsx): the projects that need attention,
 * one per id, earliest due first, at most three, each with an icon and a
 * days-left badge.
 */
module FeatureSection {
  import opened Values
  import opened ProjectsSlice
  import opened DueOrder
  import Seqs
  import Text

  /**
   * `Math.ceil((new Date(dueDate) - now) / (1000 * 60 * 60 * 24))` for an
   * instant `now` in milliseconds: the whole days left, rounded up, or None
   * (NaN) when the due date is not a date.
   */
  function DaysLeft(dueDate: Value, now: int): (r: Option<int>)
    ensures r.Some? <==> dueDate.Date?
    ensures r.Some? ==> (r.value - 1) * MsPerDay < Midnight(dueDate.day) - now <= r.value * MsPerDay
  {
    if dueDate.Date? then
      var late := now - Midnight(dueDate.day);
      assert late == (late / MsPerDay) * MsPerDay + late % MsPerDay;
      Some(-(late / MsPerDay))
    else None
  }

  /**
   * `urgent`: a due date at most seven days away and progress below 50.
   * Rounding the days up makes this "the due midnight lies no more than
   * seven whole days after now"; a due date that is not a date is never
   * urgent, since NaN is not at most 7.
   */
  predicate Urgent(p: Project, now: int): (r: bool)
    ensures r <==> p.dueDate.Date? && Midnight(p.dueDate.day) - now <= 7 * MsPerDay && LessThan(p.progress, 50)
  {
    if !Truthy(p.dueDate) then false
    else match DaysLeft(p.dueDate, now)
      case Some(d) => d <= 7 && LessThan(p.progress, 50)
      case None => false
  }

  function UrgentAt(now: int): Project -> bool {
    (p: Project) => Urgent(p, now)
  }

  /**
   * `lowCompletion`: more than two tasks and fewer than 30% of them
   * completed; a project whose task count is falsy is never low. Only a
   * numeric task count above 2 can pass, so the falsy and zero guards
   * decide nothing on their own.
   */
  predicate LowCompletion(p: Project): (r: bool)
    ensures r <==>
      && p.tasks.Num? && p.tasks.n > 2
      && ToNumber(p.completedTasks).Some?
      && 100 * ToNumber(p.completedTasks).value < 30 * p.tasks.n
  {
    if !Truthy(p.tasks) || p.tasks == Num(0) then false
    else match (ToNumber(p.completedTasks), ToNumber(p.tasks))
      case (Some(c), Some(t)) => 100 * c < 30 * t && t > 2
      case _ => false
  }

  /**
   * Meets one of the three criteria; `isBehind` is the `behindSchedule`
   * test, which compares fractional durations.
   */
  predicate NeedsAttention(p: Project, now: int, isBehind: Project -> bool) {
    Urgent(p, now) || isBehind(p) || LowCompletion(p)
  }

  /**
   * `[...urgent, ...behindSchedule, ...lowCompletion]`: the three filtered
   * lists one after the other, so each project occurs once for every
   * criterion it meets, times as often as it is listed.
   */
  function Combined(projects: seq<Project>, now: int, isBehind: Project -> bool): (r: seq<Project>)
    ensures r == Seqs.Filter(projects, UrgentAt(now)) + Seqs.Filter(projects, isBehind) + Seqs.Filter(projects, LowCompletion)
    ensures forall p ::
      (multiset(r)[p] ==
         (if Urgent(p, now) then multiset(projects)[p] else 0) +
         (if isBehind(p) then multiset(projects)[p] else 0) +
         (if LowCompletion(p) then multiset(projects)[p] else 0))
  {
    Seqs.FilterCounts(projects, UrgentAt(now));
    Seqs.FilterCounts(projects, isBehind);
    Seqs.FilterCounts(projects, LowCompletion);
    Seqs.Filter(projects, UrgentAt(now)) + Seqs.Filter(projects, isBehind) + Seqs.Filter(projects, LowCompletion)
  }

  /** The combined list holds exactly the projects that need attention. */
  lemma CombinedMembers(projects: seq<Project>, now: int, isBehind: Project -> bool)
    ensures forall p :: p in Combined(projects, now, isBehind) <==> p in projects && NeedsAttention(p, now, isBehind)
  {
    Seqs.FilterMembers(projects, UrgentAt(now));
    Seqs.FilterMembers(projects, isBehind);
    Seqs.FilterMembers(projects, LowCompletion);
  }

  /**
   * The first `n` elements of `s` with every element dropped whose id
   * occurs earlier in `s`.
   */
  function KeepFirst(s: seq<Project>, n: nat): (r: seq<Project>)
    requires n <= |s|
    ensures |r| <= n
  {
    if n == 0 then []
    else KeepFirst(s, n - 1) + (if FindIndexById(s, s[n - 1].id) == Some(n - 1) then [s[n - 1]] else [])
  }

  /**
   * `combined.filter((project, index, self) => index === self.findIndex(p =>
   * p.id === project.id))`: never longer than the list, and drawn from it.
   */
  function Dedup(s: seq<Project>): (r: seq<Project>)
    ensures |r| <= |s|
    ensures forall y :: y in r ==> y in s
  {
    KeepFirstMembers(s, |s|);
    KeepFirst(s, |s|)
  }

  /** `y` is the first project in `s` with its id. */
  predicate FirstOfItsId(s: seq<Project>, y: Project) {
    FindIndexById(s, y.id).Some? && s[FindIndexById(s, y.id).value] == y
  }

  /** No two entries share an id, and no entry appears twice. */
  predicate UniqueIds(s: seq<Project>) {
    && (forall x, y :: x in s && y in s && x.id == y.id ==> x == y)
    && (forall x :: x in s ==> multiset(s)[x] == 1)
  }

  /** `y` is the first project in `s` with its id, and it is among the first `n`. */
  predicate FirstWithin(s: seq<Project>, y: Project, n: nat) {
    FirstOfItsId(s, y) && FindIndexById(s, y.id).value < n
  }

  lemma FirstWithinStep(s: seq<Project>, y: Project, n: nat)
    requires 0 < n <= |s|
    ensures FirstWithin(s, y, n) <==>
      FirstWithin(s, y, n - 1) || (y == s[n - 1] && FindIndexById(s, s[n - 1].id) == Some(n - 1))
  {
  }

  lemma {:induction false} KeepFirstMembers(s: seq<Project>, n: nat)
    requires n <= |s|
    ensures forall y :: y in KeepFirst(s, n) <==> FirstWithin(s, y, n)
  {
    if n > 0 {
      var prev := KeepFirst(s, n - 1);
      KeepFirstMembers(s, n - 1);
      var x := s[n - 1];
      if FindIndexById(s, x.id) == Some(n - 1) {
        assert KeepFirst(s, n) == prev + [x];
      } else {
        assert KeepFirst(s, n) == prev;
      }
      forall y ensures y in KeepFirst(s, n) <==> FirstWithin(s, y, n) {
        FirstWithinStep(s, y, n);
      }
    }
  }

  /** Appending an entry with a new id keeps the ids unique. */
  lemma AppendNewId(prev: seq<Project>, x: Project)
    requires UniqueIds(prev) && forall y :: y in prev ==> y.id != x.id
    ensures UniqueIds(prev + [x])
  {
    var r := prev + [x];
    assert x !in prev;
    assert multiset(r) == multiset(prev) + multiset{x};
    forall z | z in r ensures z in prev || z == x {
    }
  }

  lemma {:induction false} KeepFirstUnique(s: seq<Project>, n: nat)
    requires n <= |s|
    ensures UniqueIds(KeepFirst(s, n))
  {
    if n > 0 {
      var prev := KeepFirst(s, n - 1);
      KeepFirstUnique(s, n - 1);
      KeepFirstMembers(s, n - 1);
      var x := s[n - 1];
      if FindIndexById(s, x.id) == Some(n - 1) {
        assert forall y :: y in prev ==> y.id != x.id;
        AppendNewId(prev, x);
        assert KeepFirst(s, n) == prev + [x];
      } else {
        assert KeepFirst(s, n) == prev;
      }
    }
  }

  lemma {:induction false} KeepFirstOrder(s: seq<Project>, n: nat) returns (idx: seq<nat>)
    requires n <= |s|
    ensures Seqs.Embedding(KeepFirst(s, n), s, idx)
    ensures forall k :: 0 <= k < |idx| ==> idx[k] < n
  {
    if n == 0 {
      idx := [];
    } else {
      idx := KeepFirstOrder(s, n - 1);
      var prev := KeepFirst(s, n - 1);
      if FindIndexById(s, s[n - 1].id) == Some(n - 1) {
        assert KeepFirst(s, n) == prev + [s[n - 1]];
        idx := idx + [n - 1];
      } else {
        assert KeepFirst(s, n) == prev;
      }
    }
  }

  /**
   * Deduplication keeps exactly the first project of every id, in the order
   * of the combined list (`idx` gives their positions there): no id is lost
   * and none appears twice.
   */
  lemma DedupSpec(s: seq<Project>) returns (idx: seq<nat>)
    ensures forall y :: y in Dedup(s) <==> FirstOfItsId(s, y)
    ensures forall x :: x in s ==> exists y :: y in Dedup(s) && y.id == x.id
    ensures UniqueIds(Dedup(s))
    ensures Seqs.Embedding(Dedup(s), s, idx)
  {
    KeepFirstMembers(s, |s|);
    KeepFirstUnique(s, |s|);
    idx := KeepFirstOrder(s, |s|);
    forall x | x in s ensures exists y :: y in Dedup(s) && y.id == x.id {
      var first := FindIndexById(s, x.id);
      assert first.Some?;
      assert FirstOfItsId(s, s[first.value]);
    }
  }

  /** `.slice(0, 3)`. */
  function TakeThree(s: seq<Project>): (r: seq<Project>)
    ensures |r| <= 3 && |r| <= |s| && r == s[..|r|]
    ensures |r| == if |s| < 3 then |s| else 3
  {
    if |s| <= 3 then s else s[..3]
  }

  /**
   * The projects the section shows: as many as there are distinct ids
   * needing attention, up to three, each from the store and in need of
   * attention.
   */
  function Featured(projects: seq<Project>, now: int, isBehind: Project -> bool): (r: seq<Project>)
    ensures |r| == if |Dedup(Combined(projects, now, isBehind))| < 3 then |Dedup(Combined(projects, now, isBehind))| else 3
    ensures forall p :: p in r ==> p in projects && NeedsAttention(p, now, isBehind)
  {
    CombinedMembers(projects, now, isBehind);
    TakeThree(SortByDue(Dedup(Combined(projects, now, isBehind))))
  }

  lemma PrefixOfUnique(s: seq<Project>, k: nat)
    requires k <= |s| && UniqueIds(s)
    ensures UniqueIds(s[..k])
    ensures forall x :: x in s[..k] ==> x in s
  {
    assert s == s[..k] + s[k..];
    assert multiset(s) == multiset(s[..k]) + multiset(s[k..]);
    forall x | x in s[..k] ensures x in s && multiset(s[..k])[x] == 1 {
      assert x in multiset(s[..k]);
    }
  }

  /** Sorting keeps the same entries, as many of them, and their unique ids. */
  lemma SortKeepsEntries(u: seq<Project>)
    ensures forall x :: x in SortByDue(u) <==> x in u
    ensures |SortByDue(u)| == |u|
    ensures SortedByDue(SortByDue(u))
    ensures UniqueIds(u) ==> UniqueIds(SortByDue(u))
  {
    var sorted := SortByDue(u);
    SortByDueSpec(u);
    forall x ensures x in sorted <==> x in u {
      assert x in sorted <==> x in multiset(sorted);
    }
    assert |multiset(sorted)| == |multiset(u)|;
  }

  /**
   * The first three entries of a sorted list without repeated ids: sorted,
   * without repeated ids, drawn from the list, due no later than any entry
   * left out, and empty only when the list is.
   */
  lemma TakeThreeSpec(s: seq<Project>)
    requires SortedByDue(s) && UniqueIds(s)
    ensures SortedByDue(TakeThree(s)) && UniqueIds(TakeThree(s))
    ensures forall x :: x in TakeThree(s) ==> x in s
    ensures forall x, y :: x in s && x !in TakeThree(s) && y in TakeThree(s) ==> KeyLe(KeyOf(y), KeyOf(x))
    ensures TakeThree(s) == [] <==> s == []
  {
    var t := TakeThree(s);
    PrefixOfUnique(s, |t|);
    forall x, y | x in s && x !in t && y in t ensures KeyLe(KeyOf(y), KeyOf(x)) {
      var j :| 0 <= j < |s| && s[j] == x;
      var i :| 0 <= i < |t| && t[i] == y;
    }
    forall i, j | 0 <= i < j < |t| ensures KeyLe(KeyOf(t[i]), KeyOf(t[j])) {
      assert t[i] == s[i] && t[j] == s[j];
    }
  }

  /**
   * The section's list: at most three projects, each from the store and in
   * need of attention, no id twice, in due order; no project that needs
   * attention and is left out is due earlier than one shown; empty exactly
   * when nothing needs attention.
   */
  lemma FeaturedSpec(projects: seq<Project>, now: int, isBehind: Project -> bool)
    ensures |Featured(projects, now, isBehind)| <= 3
    ensures |Featured(projects, now, isBehind)| ==
      if |Dedup(Combined(projects, now, isBehind))| < 3 then |Dedup(Combined(projects, now, isBehind))| else 3
    ensures forall p :: p in Featured(projects, now, isBehind) ==> p in projects && NeedsAttention(p, now, isBehind)
    ensures UniqueIds(Featured(projects, now, isBehind))
    ensures SortedByDue(Featured(projects, now, isBehind))
    ensures forall x, y ::
      && x in Dedup(Combined(projects, now, isBehind))
      && x !in Featured(projects, now, isBehind)
      && y in Featured(projects, now, isBehind)
      ==> KeyLe(KeyOf(y), KeyOf(x))
    ensures Featured(projects, now, isBehind) == [] <==>
      forall p :: p in projects ==> !NeedsAttention(p, now, isBehind)
  {
    var combined := Combined(projects, now, isBehind);
    CombinedMembers(projects, now, isBehind);
    var unique := Dedup(combined);
    var _ := DedupSpec(combined);
    SortKeepsEntries(unique);
    TakeThreeSpec(SortByDue(unique));
    FeaturedEmpty(projects, now, isBehind);
  }

  /** The section's list is empty exactly when no project needs attention. */
  lemma FeaturedEmpty(projects: seq<Project>, now: int, isBehind: Project -> bool)
    ensures Featured(projects, now, isBehind) == [] <==>
      forall p :: p in projects ==> !NeedsAttention(p, now, isBehind)
  {
    var combined := Combined(projects, now, isBehind);
    CombinedMembers(projects, now, isBehind);
    if combined != [] {
      assert combined[0] in combined;
      KeepFirstMembers(combined, |combined|);
      assert FirstWithin(combined, combined[0], |combined|);
    }
  }

  datatype Icon = AlertCircle | Clock | GitPullRequest | Target

  /**
   * `getIconForProject`: the alert for a missing due date or one at most
   * three days away, the clock up to seven days, then by progress.
   */
  function IconFor(p: Project, now: int): (icon: Icon)
    ensures !Truthy(p.dueDate) ==> icon == AlertCircle
    ensures p.dueDate.Date? ==>
      var d := DaysLeft(p.dueDate, now).value;
      && (icon == AlertCircle <==> d <= 3)
      && (icon == Clock <==> 3 < d <= 7)
    ensures Truthy(p.dueDate) && !(p.dueDate.Date? && DaysLeft(p.dueDate, now).value <= 7) ==>
      (icon == GitPullRequest <==> LessThan(p.progress, 30)) && (icon == Target <==> !LessThan(p.progress, 30))
  {
    if !Truthy(p.dueDate) then AlertCircle
    else match DaysLeft(p.dueDate, now)
      case Some(d) =>
        if d <= 3 then AlertCircle
        else if d <= 7 then Clock
        else if LessThan(p.progress, 30) then GitPullRequest
        else Target
      case None =>
        if LessThan(p.progress, 30) then GitPullRequest else Target
  }

  /** An urgent project always shows the alert or the clock. */
  lemma UrgentIcon(p: Project, now: int)
    requires Urgent(p, now)
    ensures IconFor(p, now) == AlertCircle || IconFor(p, now) == Clock
  {
  }

  /**
   * The badge: "No due date" without one, "Overdue!" once no whole day is
   * left, else the days left; a due date that is not a date shows NaN.
   */
  function BadgeText(p: Project, now: int): (text: string)
    ensures !Truthy(p.dueDate) ==> text == "No due date"
    ensures p.dueDate.Date? && DaysLeft(p.dueDate, now).value <= 0 ==> text == "Overdue!"
    ensures p.dueDate.Date? && DaysLeft(p.dueDate, now).value > 0 ==>
      text == Text.IntToString(DaysLeft(p.dueDate, now).value) + " days left"
    ensures Truthy(p.dueDate) && !p.dueDate.Date? ==> text == "NaN days left"
  {
    if !Truthy(p.dueDate) then "No due date"
    else match DaysLeft(p.dueDate, now)
      case Some(d) => if d <= 0 then "Overdue!" else Text.IntToString(d) + " days left"
      case None => "NaN days left"
  }

  /** An overdue project is flagged with the alert icon. */
  lemma OverdueShowsAlert(p: Project, now: int)
    requires BadgeText(p, now) == "Overdue!"
    ensures IconFor(p, now) == AlertCircle
    ensures p.dueDate.Date? && Midnight(p.dueDate.day) <= now
  {
  }

  /** One card of the section. */
  datatype Card = Card(project: Project, icon: Icon, badge: string)

  /**
   * The rendered section: nothing when no project is featured, else one card
   * per featured project, in order.
   */
  function View(projects: seq<Project>, now: int, isBehind: Project -> bool): (cards: Option<seq<Card>>)
    ensures cards.None? <==> forall p :: p in projects ==> !NeedsAttention(p, now, isBehind)
    ensures cards.Some? ==>
      && |cards.value| == |Featured(projects, now, isBehind)|
      && 1 <= |cards.value| <= 3
      && forall i :: 0 <= i < |cards.value| ==>
        var p := Featured(projects, now, isBehind)[i];
        cards.value[i] == Card(p, IconFor(p, now), BadgeText(p, now))
  {
    FeaturedEmpty(projects, now, isBehind);
    var featured := Featured(projects, now, isBehind);
    if featured == [] then None
    else Some(seq(|featured|, i requires 0 <= i < |featured| => Card(featured[i], IconFor(featured[i], now), BadgeText(featured[i], now))))
  }
}

=== FILE: main_feature.dfy ===
/**
 * The dashboard's headline panel (src/components/MainFeature.jsx): task
 * totals, the overall completion rate, the deadlines of the coming week,
 * and the one of three states the panel shows with its texts.
 */
module MainFeature {
  import opened Values
  import opened ProjectsSlice
  import opened DueOrder
  import Seqs
  import Text

  /**
   * `projects.reduce((sum, p) => sum + (p.completedTasks || 0), 0)`: 0 for
   * no projects, and never negative when no count is.
   */
  function CompletedTasks(projects: seq<Project>): (total: int)
    ensures projects == [] ==> total == 0
    ensures (forall p :: p in projects ==> CountOf(p.completedTasks) >= 0) ==> total >= 0
  {
    if projects == [] then 0
    else
      assert forall p :: p in projects[..|projects| - 1] ==> p in projects;
      CompletedTasks(projects[..|projects| - 1]) + CountOf(projects[|projects| - 1].completedTasks)
  }

  /**
   * `projects.reduce((sum, p) => sum + (p.tasks || 0), 0)`: 0 for no
   * projects, and never negative when no count is.
   */
  function TotalTasks(projects: seq<Project>): (total: int)
    ensures projects == [] ==> total == 0
    ensures (forall p :: p in projects ==> CountOf(p.tasks) >= 0) ==> total >= 0
  {
    if projects == [] then 0
    else
      assert forall p :: p in projects[..|projects| - 1] ==> p in projects;
      TotalTasks(projects[..|projects| - 1]) + CountOf(projects[|projects| - 1].tasks)
  }

  /** A single project contributes its own counts, a falsy count as 0. */
  lemma TotalsOfOne(p: Project)
    ensures CompletedTasks([p]) == CountOf(p.completedTasks)
    ensures TotalTasks([p]) == CountOf(p.tasks)
  {
    assert [p][..0] == [];
  }

  /**
   * The totals add up list by list: the totals of two lists put together
   * are the sums of their totals, whatever order `reduce` visits them in.
   */
  lemma {:induction false} TotalsAppend(a: seq<Project>, b: seq<Project>)
    ensures CompletedTasks(a + b) == CompletedTasks(a) + CompletedTasks(b)
    ensures TotalTasks(a + b) == TotalTasks(a) + TotalTasks(b)
  {
    if b == [] {
      assert a + b == a;
    } else {
      var init := b[..|b| - 1];
      TotalsAppend(a, init);
      assert (a + b)[..|a + b| - 1] == a + init;
      assert (a + b)[|a + b| - 1] == b[|b| - 1];
    }
  }

  /** A project that has done no more tasks than it has. */
  predicate CountsConsistent(p: Project) {
    0 <= CountOf(p.completedTasks) <= CountOf(p.tasks)
  }

  /** When every project is consistent, so are the totals. */
  lemma {:induction false} TotalsConsistent(projects: seq<Project>)
    requires forall p :: p in projects ==> CountsConsistent(p)
    ensures 0 <= CompletedTasks(projects) <= TotalTasks(projects)
  {
    if projects != [] {
      var init := projects[..|projects| - 1];
      assert forall p :: p in init ==> p in projects;
      TotalsConsistent(init);
      assert CountsConsistent(projects[|projects| - 1]);
    }
  }

  /**
   * `totalTasks > 0 ? Math.round(completed / totalTasks * 100) : 0`: the
   * percentage rounded to the nearest integer, halves rounded up.
   */
  function CompletionRate(completed: int, total: int): (rate: int)
    ensures total <= 0 ==> rate == 0
    ensures total > 0 ==> (2 * rate - 1) * total <= 200 * completed < (2 * rate + 1) * total
  {
    if total > 0 then
      var rate := (200 * completed + total) / (2 * total);
      var rest := (200 * completed + total) % (2 * total);
      assert 200 * completed + total == rate * (2 * total) + rest;
      assert (2 * rate - 1) * total == rate * (2 * total) - total;
      assert (2 * rate + 1) * total == rate * (2 * total) + total;
      rate
    else 0
  }

  lemma MulMonotone(a: int, b: int, t: int)
    requires a <= b && t >= 0
    ensures a * t <= b * t
  {
    assert b * t - a * t == (b - a) * t;
  }

  /** With no more completed than total tasks, the rate is a percentage. */
  lemma RateIsPercentage(completed: int, total: int)
    requires 0 <= completed <= total
    ensures 0 <= CompletionRate(completed, total) <= 100
  {
    if total > 0 {
      var rate := CompletionRate(completed, total);
      if rate < 0 {
        MulMonotone(2 * rate + 1, -1, total);
      } else if rate > 100 {
        MulMonotone(201, 2 * rate - 1, total);
      }
    }
  }

  /**
   * Due no earlier than the instant `now` (in milliseconds) and no later
   * than the same instant a week on: a due date, which starts at its day's
   * midnight, falls in the window when that midnight does.
   */
  predicate DueThisWeek(p: Project, now: int) {
    p.dueDate.Date? && now <= Midnight(p.dueDate.day) <= now + 7 * MsPerDay
  }

  function DueThisWeekOf(now: int): Project -> bool {
    (p: Project) => DueThisWeek(p, now)
  }

  /** `upcomingDeadlines`: the projects due this week, earliest first. */
  function UpcomingDeadlines(projects: seq<Project>, now: int): (up: seq<Project>)
    ensures |up| <= |projects|
    ensures forall p :: p in up ==> p in projects && DueThisWeek(p, now)
  {
    Seqs.FilterMembers(projects, DueThisWeekOf(now));
    SortByDue(Seqs.Filter(projects, DueThisWeekOf(now)))
  }

  /**
   * The upcoming deadlines are exactly the projects due this week, each as
   * often as in the list, in ascending order of due day.
   */
  lemma UpcomingDeadlinesSpec(projects: seq<Project>, now: int)
    ensures forall p :: p in UpcomingDeadlines(projects, now) <==> p in projects && DueThisWeek(p, now)
    ensures forall p ::
      multiset(UpcomingDeadlines(projects, now))[p] == (if DueThisWeek(p, now) then multiset(projects)[p] else 0)
    ensures var up := UpcomingDeadlines(projects, now);
      forall i, j :: 0 <= i < j < |up| ==>
        up[i].dueDate.Date? && up[j].dueDate.Date? && up[i].dueDate.day <= up[j].dueDate.day
  {
    var due := Seqs.Filter(projects, DueThisWeekOf(now));
    Seqs.FilterMembers(projects, DueThisWeekOf(now));
    Seqs.FilterCounts(projects, DueThisWeekOf(now));
    SortByDueSpec(due);
    var up := UpcomingDeadlines(projects, now);
    forall i | 0 <= i < |up| ensures DueThisWeek(up[i], now) {
      assert up[i] in multiset(up);
    }
  }

  datatype FeatureState = Success | Warning | Neutral

  /** When every project is consistent, the overall rate is a percentage. */
  lemma OverallRateIsPercentage(projects: seq<Project>)
    requires forall p :: p in projects ==> CountsConsistent(p)
    ensures 0 <= CompletionRate(CompletedTasks(projects), TotalTasks(projects)) <= 100
  {
    TotalsConsistent(projects);
    RateIsPercentage(CompletedTasks(projects), TotalTasks(projects));
  }

  /**
   * The panel's state: success from a 70% rate on, whatever the deadlines;
   * below that a warning when something is due this week, else neutral.
   */
  function ChooseState(rate: int, upcoming: nat): (state: FeatureState)
    ensures state == Success <==> rate >= 70
    ensures state == Warning <==> rate < 70 && upcoming > 0
    ensures state == Neutral <==> rate < 70 && upcoming == 0
  {
    if rate >= 70 then Success
    else if upcoming > 0 then Warning
    else Neutral
  }

  /**
   * `featureState` for the given projects: success from a 70% overall rate
   * on, below that a warning exactly when some project is due this week.
   */
  function FeatureStateOf(projects: seq<Project>, now: int): (state: FeatureState)
    ensures var rate := CompletionRate(CompletedTasks(projects), TotalTasks(projects));
      && (state == Success <==> rate >= 70)
      && (state == Warning <==> rate < 70 && exists p :: p in projects && DueThisWeek(p, now))
      && (state == Neutral <==> rate < 70 && forall p :: p in projects ==> !DueThisWeek(p, now))
  {
    UpcomingDeadlinesSpec(projects, now);
    ChooseState(CompletionRate(CompletedTasks(projects), TotalTasks(projects)),
                |UpcomingDeadlines(projects, now)|)
  }

  /** The warning text: "project" takes an "s" only for more than one deadline. */
  function WarningText(upcoming: nat): (text: string)
    ensures upcoming > 1 ==> text == Text.IntToString(upcoming) + " projects due in the next 7 days"
    ensures upcoming <= 1 ==> text == Text.IntToString(upcoming) + " project due in the next 7 days"
  {
    Text.IntToString(upcoming) + " project" + (if upcoming > 1 then "s" else "") + " due in the next 7 days"
  }

  /** The neutral text: "project" takes an "s" for every count but one. */
  function NeutralText(totalProjects: nat): (text: string)
    ensures totalProjects != 1 ==> text == "You have " + Text.IntToString(totalProjects) + " active projects"
    ensures totalProjects == 1 ==> text == "You have 1 active project"
  {
    "You have " + Text.IntToString(totalProjects) + " active project" + (if totalProjects != 1 then "s" else "")
  }

  datatype FeatureContent = FeatureContent(title: string, description: string, buttonText: string)

  /**
   * `getFeatureContent`: the progress details from a 70% completion rate on,
   * else the upcoming deadlines when any project is due this week, else the
   * invitation to create a project.
   */
  function Content(projects: seq<Project>, now: int): (content: FeatureContent)
    ensures var rate := CompletionRate(CompletedTasks(projects), TotalTasks(projects));
      && (content.buttonText == "View Progress Details" <==> rate >= 70)
      && (content.buttonText == "View Upcoming Deadlines" <==> rate < 70 && UpcomingDeadlines(projects, now) != [])
      && (content.buttonText == "Create New Project" <==> rate < 70 && UpcomingDeadlines(projects, now) == [])
    ensures content.buttonText == "View Progress Details" ==>
      content.description == "Overall completion rate: " +
        Text.IntToString(CompletionRate(CompletedTasks(projects), TotalTasks(projects))) + "%"
    ensures content.buttonText == "View Upcoming Deadlines" ==>
      content.description == WarningText(|UpcomingDeadlines(projects, now)|)
    ensures content.buttonText == "Create New Project" ==> content.description == NeutralText(|projects|)
    ensures content.buttonText == "View Progress Details" ==> content.title == "You're making great progress!"
    ensures content.buttonText == "View Upcoming Deadlines" ==> content.title == "Upcoming deadlines need attention"
    ensures content.buttonText == "Create New Project" ==> content.title == "Welcome to your project dashboard"
  {
    match FeatureStateOf(projects, now)
    case Success =>
      FeatureContent(
        "You're making great progress!",
        "Overall completion rate: " +
          Text.IntToString(CompletionRate(CompletedTasks(projects), TotalTasks(projects))) + "%",
        "View Progress Details")
    case Warning =>
      FeatureContent(
        "Upcoming deadlines need attention",
        WarningText(|UpcomingDeadlines(projects, now)|),
        "View Upcoming Deadlines")
    case Neutral =>
      FeatureContent(
        "Welcome to your project dashboard",
        NeutralText(|projects|),
        "Create New Project")
  }
}

=== FILE: project_form.dfy ===
/**
 * The project form (src/components/projects/ProjectForm.jsx): its field
 * values and error messages, the required-field validation, the per-field
 * edit handler and the submission, which turns the comma-separated team
 * text into a list of names.
 */
module ProjectForm {
  import opened Values
  import Text

  datatype Field = Name | Description | DueDate | Team

  /** The form's text fields, as the inputs hold them. */
  datatype FormData = FormData(name: string, description: string, dueDate: string, team: string)

  /** What `onSubmit` receives: the form fields, with the team parsed into names. */
  datatype Submission = Submission(name: string, description: string, dueDate: string, team: seq<string>)

  /** The project the form starts from; any field may be missing. */
  datatype InitialProject = InitialProject(
    name: Option<string>,
    description: Option<string>,
    dueDate: Option<string>,
    team: Option<seq<string>>)

  const NameRequired := "Project name is required"
  const DescriptionRequired := "Description is required"
  const DueDateRequired := "Due date is required"

  function FieldOf(data: FormData, field: Field): string {
    match field
    case Name => data.name
    case Description => data.description
    case DueDate => data.dueDate
    case Team => data.team
  }

  /** `{ ...data, [field]: value }`: the named field changes and no other. */
  function WithField(data: FormData, field: Field, value: string): (r: FormData)
    ensures FieldOf(r, field) == value
    ensures forall other :: other != field ==> FieldOf(r, other) == FieldOf(data, other)
  {
    match field
    case Name => data.(name := value)
    case Description => data.(description := value)
    case DueDate => data.(dueDate := value)
    case Team => data.(team := value)
  }

  function StringOr(s: Option<string>): string {
    match s
    case Some(v) => v
    case None => ""
  }

  /**
   * The form's starting values: the project's own name, description and
   * due date where it has them, empty ones where it does not, and an
   * existing team shown joined with ", ".
   */
  function InitialFormData(project: InitialProject): (r: FormData)
    ensures project.team.None? ==> r.team == ""
    ensures project.team.Some? ==> r.team == Text.Join(project.team.value, ", ")
    ensures project.name.None? ==> r.name == ""
    ensures project.name.Some? ==> r.name == project.name.value
    ensures project.description.None? ==> r.description == ""
    ensures project.description.Some? ==> r.description == project.description.value
    ensures project.dueDate.None? ==> r.dueDate == ""
    ensures project.dueDate.Some? ==> r.dueDate == project.dueDate.value
  {
    FormData(
      StringOr(project.name),
      StringOr(project.description),
      StringOr(project.dueDate),
      if project.team.Some? then Text.Join(project.team.value, ", ") else "")
  }

  /**
   * A team of non-empty, trimmed, comma-free names shown in the form comes
   * back from submission exactly as it went in.
   */
  lemma InitialTeamRoundTrip(project: InitialProject)
    requires project.team.Some? && Text.CleanNames(project.team.value)
    ensures Text.ParseNames(InitialFormData(project).team) == project.team.value
  {
    Text.ParseJoinRoundTrip(project.team.value);
  }

  /**
   * The errors `validate` records: name and description are required after
   * trimming, the due date must not be empty, the team is never checked.
   */
  function ValidationErrors(data: FormData): (errors: map<Field, Option<string>>)
    ensures Name in errors <==> Text.Trim(data.name) == ""
    ensures Description in errors <==> Text.Trim(data.description) == ""
    ensures DueDate in errors <==> data.dueDate == ""
    ensures Team !in errors
    ensures forall f :: f in errors ==> errors[f].Some? && errors[f].value != ""
    ensures |errors| == 0 <==> Text.Trim(data.name) != "" && Text.Trim(data.description) != "" && data.dueDate != ""
  {
    var withName: map<Field, Option<string>> :=
      if Text.Trim(data.name) == "" then map[Name := Some(NameRequired)] else map[];
    var withDescription :=
      if Text.Trim(data.description) == "" then withName[Description := Some(DescriptionRequired)] else withName;
    var all :=
      if data.dueDate == "" then withDescription[DueDate := Some(DueDateRequired)] else withDescription;
    assert Name in all ==> |all| > 0 by {
      if Name in all { assert Name in all.Keys; }
    }
    assert Description in all ==> |all| > 0 by {
      if Description in all { assert Description in all.Keys; }
    }
    assert DueDate in all ==> |all| > 0 by {
      if DueDate in all { assert DueDate in all.Keys; }
    }
    all
  }

  /** `errors[field]` is truthy: a message is shown for the field. */
  predicate HasError(errors: map<Field, Option<string>>, field: Field) {
    field in errors && errors[field].Some? && errors[field].value != ""
  }

  /** The form component's state: the field values and the error messages. */
  class FormState {
    var formData: FormData
    var errors: map<Field, Option<string>>

    constructor (project: InitialProject)
      ensures formData == InitialFormData(project) && errors == map[]
    {
      formData := InitialFormData(project);
      errors := map[];
    }

    /** `validate`: record the errors and report whether there are none. */
    method Validate() returns (valid: bool)
      modifies this
      ensures formData == old(formData)
      ensures errors == ValidationErrors(formData)
      ensures valid <==> |errors| == 0
    {
      var newErrors: map<Field, Option<string>> := map[];
      if Text.Trim(formData.name) == "" {
        newErrors := newErrors[Name := Some(NameRequired)];
      }
      if Text.Trim(formData.description) == "" {
        newErrors := newErrors[Description := Some(DescriptionRequired)];
      }
      if formData.dueDate == "" {
        newErrors := newErrors[DueDate := Some(DueDateRequired)];
      }
      errors := newErrors;
      valid := |newErrors| == 0;
    }

    /**
     * `handleChange`: store the new value; a shown error on that field is
     * replaced by null, every other error stays as it was.
     */
    method HandleChange(field: Field, value: string)
      modifies this
      ensures formData == WithField(old(formData), field, value)
      ensures HasError(old(errors), field) ==> errors == old(errors)[field := None]
      ensures !HasError(old(errors), field) ==> errors == old(errors)
      ensures forall other :: other != field ==>
        (other in errors <==> other in old(errors)) &&
        (other in errors ==> errors[other] == old(errors)[other])
    {
      formData := WithField(formData, field, value);
      if HasError(errors, field) {
        errors := errors[field := None];
      }
    }

    /**
     * `handleSubmit`: when validation passes, `onSubmit` gets the fields
     * with the team text parsed into names; otherwise it is not called.
     */
    method HandleSubmit() returns (submitted: Option<Submission>)
      modifies this
      ensures formData == old(formData)
      ensures errors == ValidationErrors(formData)
      ensures submitted.Some? <==> |ValidationErrors(formData)| == 0
      ensures submitted.Some? ==>
        submitted.value == Submission(formData.name, formData.description, formData.dueDate,
                                      Text.ParseNames(formData.team))
    {
      var valid := Validate();
      if valid {
        submitted := Some(Submission(formData.name, formData.description, formData.dueDate,
                                     Text.ParseNames(formData.team)));
      } else {
        submitted := None;
      }
    }
  }
}

=== FILE: project_service.dfy ===
/**
 * The project service (src/services/projectService.js): the record it
 * sends when creating a project, the fields it lets through, and how it
 * reads the SDK's replies.
 */
module ProjectService {
  import opened Values
  import opened Records

  /** The fields of the project table a write may set. */
  const UpdateableFields: seq<string> :=
    ["Name", "Tags", "Owner", "description", "progress", "tasks", "completedTasks", "dueDate", "team"]

  const CreateFailure := "Failed to create project"

  /** `getUpdateableFields`: keep exactly the whitelisted keys, values unchanged. */
  method GetUpdateableFields(project: Record) returns (filtered: Record)
    ensures forall k :: k in filtered <==> k in project && k in UpdateableFields
    ensures forall k :: k in filtered ==> filtered[k] == project[k]
    ensures "Id" !in filtered && "CreatedOn" !in filtered
  {
    filtered := FilterFields(project, UpdateableFields);
  }

  /** The record `createNewProject` builds from the form data before filtering it. */
  function MappedProject(projectData: Record): (r: Record)
    ensures r.Keys == {"Name", "description", "progress", "tasks", "completedTasks", "dueDate", "team"}
    ensures r["Name"] == Get(projectData, "name")
    ensures forall k :: k in {"description", "dueDate", "team"} ==> r[k] == Get(projectData, k)
    ensures forall k :: k in {"progress", "tasks", "completedTasks"} ==>
      r[k] == if Truthy(Get(projectData, k)) then Get(projectData, k) else Num(0)
  {
    map[
      "Name" := Get(projectData, "name"),
      "description" := Get(projectData, "description"),
      "progress" := Or(Get(projectData, "progress"), Num(0)),
      "tasks" := Or(Get(projectData, "tasks"), Num(0)),
      "completedTasks" := Or(Get(projectData, "completedTasks"), Num(0)),
      "dueDate" := Get(projectData, "dueDate"),
      "team" := Get(projectData, "team")
    ]
  }

  /** Every key of the mapped record is whitelisted, so filtering drops nothing. */
  lemma MappedProjectSurvivesFilter(projectData: Record)
    ensures Restrict(MappedProject(projectData), UpdateableFields) == MappedProject(projectData)
  {
    RestrictKeepsAllowed(MappedProject(projectData), UpdateableFields);
  }

  /**
   * `createNewProject`: the record sent to the SDK, and the created record's
   * data read from the SDK's `response`.
   */
  method CreateNewProject(projectData: Record, response: Option<Response>)
    returns (sent: Record, created: Outcome<Value>)
    ensures sent == MappedProject(projectData)
    ensures created.Ok? <==>
      response.Some? && Truthy(response.value.success) &&
      response.value.results.Some? && |response.value.results.value| > 0
    ensures created.Ok? ==> created.value == response.value.results.value[0].data
    ensures created.Thrown? ==> created.message == CreateFailure
  {
    var mapped := MappedProject(projectData);
    sent := GetUpdateableFields(mapped);
    MappedProjectSurvivesFilter(projectData);
    created := FirstResultData(response, CreateFailure);
  }

  /**
   * The query `fetchProjects` sends: newest first, no filter, and every
   * field a create or update can write is read back.
   */
  function FetchProjectsQuery(): (params: Query)
    ensures forall f :: f in UpdateableFields ==> f in params.fields
    ensures "CreatedOn" in params.fields && params.orderBy == [OrderBy("CreatedOn", "DESC")]
    ensures params.expands == [] && params.where == None && params.whereGroups == None
  {
    Query(["Name", "Tags", "Owner", "CreatedOn", "CreatedBy", "ModifiedOn", "ModifiedBy",
           "description", "progress", "tasks", "completedTasks", "dueDate", "team"],
          [OrderBy("CreatedOn", "DESC")], [], None, None)
  }

  /** `fetchProjects`: the reply's data, or an empty list when it has none. */
  function FetchProjectsResult(response: FetchResponse): (r: Value)
    ensures Truthy(response.data) ==> r == response.data
    ensures !Truthy(response.data) ==> r == List([])
  {
    Or(response.data, List([]))
  }

  /** `fetchProjectById`: the reply's data, or null when it has none. */
  function FetchProjectByIdResult(response: FetchResponse): (r: Value)
    ensures Truthy(response.data) ==> r == response.data
    ensures !Truthy(response.data) ==> r == Null
    ensures Truthy(r) <==> Truthy(response.data)
  {
    Or(response.data, Null)
  }
}

=== FILE: projects_slice.dfy ===
/**
 * The projects slice of the store (src/features/projects/projectsSlice.js):
 * the project list with its fetch lifecycle, the reducers that edit it, the
 * selectors that read it, and the guards of the thunks that feed it.
 */
module ProjectsSlice {
  import opened Values
  import opened Records
  import Seqs

  /** A project as the front end holds it, after mapping from the database record. */
  datatype Project = Project(
    id: Value,
    name: Value,
    description: Value,
    progress: Value,
    tasks: Value,
    completedTasks: Value,
    dueDate: Value,
    team: Value,
    createdAt: Value)

  datatype Status = Idle | Loading | Succeeded | Failed

  /**
   * The database-to-front-end mapping every fulfilled case applies: renamed
   * keys, counts defaulted to 0 and the team to an empty list when falsy.
   */
  function ToProject(rec: Record): (p: Project)
    ensures p.id == Get(rec, "Id") && p.name == Get(rec, "Name") && p.createdAt == Get(rec, "CreatedOn")
    ensures p.description == Get(rec, "description") && p.dueDate == Get(rec, "dueDate")
    ensures p.progress == if Truthy(Get(rec, "progress")) then Get(rec, "progress") else Num(0)
    ensures p.tasks == if Truthy(Get(rec, "tasks")) then Get(rec, "tasks") else Num(0)
    ensures p.completedTasks == if Truthy(Get(rec, "completedTasks")) then Get(rec, "completedTasks") else Num(0)
    ensures p.team == if Truthy(Get(rec, "team")) then Get(rec, "team") else List([])
  {
    Project(
      id := Get(rec, "Id"),
      name := Get(rec, "Name"),
      description := Get(rec, "description"),
      progress := Or(Get(rec, "progress"), Num(0)),
      tasks := Or(Get(rec, "tasks"), Num(0)),
      completedTasks := Or(Get(rec, "completedTasks"), Num(0)),
      dueDate := Get(rec, "dueDate"),
      team := Or(Get(rec, "team"), List([])),
      createdAt := Get(rec, "CreatedOn"))
  }

  /** After mapping, no count is missing and the team is always a truthy value. */
  lemma ToProjectNormalises(rec: Record)
    ensures var p := ToProject(rec);
      && (Truthy(p.progress) || p.progress == Num(0))
      && (Truthy(p.tasks) || p.tasks == Num(0))
      && (Truthy(p.completedTasks) || p.completedTasks == Num(0))
      && Truthy(p.team)
  {
  }

  /**
   * `projects.findIndex(p => p.id === id)`: the first position holding a
   * project with that id, or None.
   */
  function FindIndexById(s: seq<Project>, id: Value): (r: Option<nat>)
    ensures r.Some? ==> r.value < |s| && s[r.value].id == id
    ensures r.Some? ==> forall j :: 0 <= j < r.value ==> s[j].id != id
    ensures r.None? ==> forall j :: 0 <= j < |s| ==> s[j].id != id
  {
    if s == [] then None
    else if s[0].id == id then Some(0)
    else match FindIndexById(s[1..], id)
      case None => None
      case Some(i) => Some(i + 1)
  }

  /** The filter predicate of the delete case: keep projects with another id. */
  function IdIsNot(id: Value): Project -> bool {
    (p: Project) => p.id != id
  }

  /** `projects.filter(p => p.id !== id)`. */
  function RemoveById(s: seq<Project>, id: Value): (r: seq<Project>)
    ensures |r| <= |s|
    ensures forall p :: p in r ==> p.id != id
  {
    Seqs.FilterMembers(s, IdIsNot(id));
    Seqs.Filter(s, IdIsNot(id))
  }

  /**
   * Removing by id drops every project with that id, keeps every other one
   * exactly as often as before, and keeps the survivors in their original
   * relative order (`idx` gives each survivor's old position).
   */
  lemma RemoveByIdSpec(s: seq<Project>, id: Value) returns (idx: seq<nat>)
    ensures forall p :: p in RemoveById(s, id) <==> p in s && p.id != id
    ensures forall p :: multiset(RemoveById(s, id))[p] == if p.id == id then 0 else multiset(s)[p]
    ensures Seqs.Embedding(RemoveById(s, id), s, idx)
  {
    Seqs.FilterMembers(s, IdIsNot(id));
    Seqs.FilterCounts(s, IdIsNot(id));
    idx := Seqs.FilterOrder(s, IdIsNot(id));
  }

  /** `selectAllProjects`: the list, or an empty list when the slice holds none. */
  function SelectAllProjects(projects: Option<seq<Project>>): (r: seq<Project>)
    ensures projects.None? ==> r == []
    ensures projects.Some? ==> r == projects.value
  {
    match projects
    case None => []
    case Some(list) => list
  }

  /** `selectProjectById`: the first project with the given id, or nothing. */
  function SelectProjectById(projects: seq<Project>, id: Value): (r: Option<Project>)
    ensures r.Some? ==> r.value in projects && r.value.id == id
    ensures r.Some? ==> exists i :: 0 <= i < |projects| && projects[i] == r.value &&
                                    forall j :: 0 <= j < i ==> projects[j].id != id
    ensures r.None? <==> forall p :: p in projects ==> p.id != id
  {
    match FindIndexById(projects, id)
    case None => None
    case Some(i) => Some(projects[i])
  }

  /** The state of the slice; each reducer case is a method that edits it in place. */
  class ProjectsState {
    var projects: seq<Project>
    var status: Status
    var error: Option<string>
    var currentProject: Option<Project>

    /** `initialState`. */
    constructor ()
      ensures projects == [] && status == Idle && error == None && currentProject == None
    {
      projects := [];
      status := Idle;
      error := None;
      currentProject := None;
    }

    /** `updateProjectStatus`: only the status changes. */
    method UpdateProjectStatus(newStatus: Status)
      modifies this
      ensures status == newStatus
      ensures projects == old(projects) && error == old(error) && currentProject == old(currentProject)
    {
      status := newStatus;
    }

    /** `setCurrentProject`: only the current project changes. */
    method SetCurrentProject(project: Option<Project>)
      modifies this
      ensures currentProject == project
      ensures projects == old(projects) && status == old(status) && error == old(error)
    {
      currentProject := project;
    }

    /** `clearCurrentProject`. */
    method ClearCurrentProject()
      modifies this
      ensures currentProject == None
      ensures projects == old(projects) && status == old(status) && error == old(error)
    {
      currentProject := None;
    }

    /** Every `pending` case: loading, no error, list and current project untouched. */
    method Pending()
      modifies this
      ensures status == Loading && error == None
      ensures projects == old(projects) && currentProject == old(currentProject)
    {
      status := Loading;
      error := None;
    }

    /** `fetchAllProjects.rejected`: the error is the thrown error's message. */
    method FetchAllRejected(message: string)
      modifies this
      ensures status == Failed && error == Some(message)
      ensures projects == old(projects) && currentProject == old(currentProject)
    {
      status := Failed;
      error := Some(message);
    }

    /**
     * The other `rejected` cases: the error is the reject payload when there
     * is a non-empty one, else the thrown error's message.
     */
    method Rejected(payload: Option<string>, message: string)
      modifies this
      ensures status == Failed
      ensures payload.Some? && payload.value != "" ==> error == payload
      ensures !(payload.Some? && payload.value != "") ==> error == Some(message)
      ensures projects == old(projects) && currentProject == old(currentProject)
    {
      status := Failed;
      if payload.Some? && payload.value != "" {
        error := payload;
      } else {
        error := Some(message);
      }
    }

    /** `fetchAllProjects.fulfilled`: the list becomes the payload, mapped element by element. */
    method FetchAllFulfilled(payload: seq<Record>)
      modifies this
      ensures status == Succeeded
      ensures |projects| == |payload|
      ensures forall i :: 0 <= i < |payload| ==> projects[i] == ToProject(payload[i])
      ensures error == old(error) && currentProject == old(currentProject)
    {
      status := Succeeded;
      projects := seq(|payload|, i requires 0 <= i < |payload| => ToProject(payload[i]));
    }

    /** `fetchProjectById.fulfilled`: the fetched record becomes the current project. */
    method FetchByIdFulfilled(payload: Record)
      modifies this
      ensures status == Succeeded && currentProject == Some(ToProject(payload))
      ensures projects == old(projects) && error == old(error)
    {
      status := Succeeded;
      currentProject := Some(ToProject(payload));
    }

    /** `createProject.fulfilled`: the new project goes in front, the rest shift up one. */
    method CreateFulfilled(payload: Record)
      modifies this
      ensures status == Succeeded
      ensures |projects| == |old(projects)| + 1
      ensures projects[0] == ToProject(payload)
      ensures forall i :: 0 <= i < |old(projects)| ==> projects[i + 1] == old(projects)[i]
      ensures error == old(error) && currentProject == old(currentProject)
    {
      status := Succeeded;
      projects := [ToProject(payload)] + projects;
    }

    /**
     * `updateProject.fulfilled`: the first project with the payload's `Id`
     * is replaced by the mapped payload; with no such project nothing changes.
     */
    method UpdateFulfilled(payload: Record)
      modifies this
      ensures status == Succeeded
      ensures |projects| == |old(projects)|
      ensures (forall i :: 0 <= i < |old(projects)| ==> old(projects)[i].id != Get(payload, "Id")) ==>
        projects == old(projects)
      ensures forall i ::
        (&& 0 <= i < |old(projects)|
         && old(projects)[i].id == Get(payload, "Id")
         && (forall j :: 0 <= j < i ==> old(projects)[j].id != Get(payload, "Id")))
        ==> projects == old(projects)[i := ToProject(payload)]
      ensures error == old(error) && currentProject == old(currentProject)
    {
      status := Succeeded;
      var index := FindIndexById(projects, Get(payload, "Id"));
      if index.Some? {
        projects := projects[index.value := ToProject(payload)];
      }
    }

    /**
     * `deleteProject.fulfilled`: every project with the deleted id leaves the
     * list; the current project is cleared exactly when it has that id.
     */
    method DeleteFulfilled(id: Value)
      modifies this
      ensures status == Succeeded
      ensures projects == RemoveById(old(projects), id)
      ensures forall p :: p in projects <==> p in old(projects) && p.id != id
      ensures old(currentProject).Some? && old(currentProject).value.id == id ==> currentProject == None
      ensures !(old(currentProject).Some? && old(currentProject).value.id == id) ==>
        currentProject == old(currentProject)
      ensures error == old(error)
    {
      status := Succeeded;
      var _ := RemoveByIdSpec(projects, id);
      projects := RemoveById(projects, id);
      if currentProject.Some? && currentProject.value.id == id {
        currentProject := None;
      }
    }
  }

  /** How a thunk settles: fulfilled with a payload, or rejected with a payload. */
  datatype ThunkResult = Fulfilled(payload: Value) | RejectedWith(reason: string)

  const MissingId := "Project ID is required for updates"
  const NotFound := "Project not found"

  /** `error.message || fallback`. */
  function MessageOr(message: string, fallback: string): string {
    if message != "" then message else fallback
  }

  /**
   * The `fetchAllProjects` thunk, given what the fetch service did: it
   * settles with the service's result, and a thrown error rejects it with
   * that error's message.
   */
  function FetchAllProjectsThunk(call: Outcome<Value>): (r: ThunkResult)
    ensures call.Ok? <==> r.Fulfilled?
    ensures call.Ok? ==> r.payload == call.value
    ensures call.Thrown? ==> r.reason == call.message
  {
    match call
    case Ok(v) => Fulfilled(v)
    case Thrown(m) => RejectedWith(m)
  }

  /**
   * The `updateProject` thunk, given the update service as `service`: a
   * record without an id is rejected before the service is called, so the
   * outcome does not depend on `service` at all.
   */
  function UpdateProjectThunk(projectData: Record, service: Record -> Outcome<Value>): (r: ThunkResult)
    ensures !Truthy(Get(projectData, "id")) ==> r == RejectedWith(MissingId)
    ensures Truthy(Get(projectData, "id")) && service(projectData).Ok? ==>
      r == Fulfilled(service(projectData).value)
    ensures Truthy(Get(projectData, "id")) && service(projectData).Thrown? ==>
      r.RejectedWith? && r.reason != ""
    ensures Truthy(Get(projectData, "id")) && service(projectData).Thrown? && service(projectData).message != "" ==>
      r == RejectedWith(service(projectData).message)
    ensures Truthy(Get(projectData, "id")) && service(projectData).Thrown? && service(projectData).message == "" ==>
      r == RejectedWith("Failed to update project")
  {
    if !Truthy(Get(projectData, "id")) then RejectedWith(MissingId)
    else match service(projectData)
      case Ok(v) => Fulfilled(v)
      case Thrown(m) => RejectedWith(MessageOr(m, "Failed to update project"))
  }

  /** A missing id rejects whatever the update service would have done. */
  lemma UpdateWithoutIdCallsNoService(projectData: Record, service1: Record -> Outcome<Value>, service2: Record -> Outcome<Value>)
    requires !Truthy(Get(projectData, "id"))
    ensures UpdateProjectThunk(projectData, service1) == UpdateProjectThunk(projectData, service2) == RejectedWith(MissingId)
  {
  }

  /**
   * The `fetchProjectById` thunk, given what the fetch service did: a falsy
   * result is "not found", a thrown error rejects with its message, or with
   * "Failed to fetch project" when it has none.
   */
  function FetchProjectByIdThunk(call: Outcome<Value>): (r: ThunkResult)
    ensures call.Ok? && !Truthy(call.value) ==> r == RejectedWith(NotFound)
    ensures call.Ok? && Truthy(call.value) ==> r == Fulfilled(call.value)
    ensures call.Thrown? ==> r.RejectedWith? && r.reason != ""
    ensures call.Thrown? && call.message != "" ==> r == RejectedWith(call.message)
    ensures call.Thrown? && call.message == "" ==> r == RejectedWith("Failed to fetch project")
    ensures r.Fulfilled? ==> Truthy(r.payload)
  {
    match call
    case Ok(v) => if !Truthy(v) then RejectedWith(NotFound) else Fulfilled(v)
    case Thrown(m) => RejectedWith(MessageOr(m, "Failed to fetch project"))
  }

  /**
   * The `deleteProject` thunk: fulfilled with the deleted id once the service
   * returns, whatever it returned; a thrown error rejects with its message,
   * or with "Failed to delete project" when it has none.
   */
  function DeleteProjectThunk(projectId: Value, call: Outcome<Value>): (r: ThunkResult)
    ensures call.Ok? ==> r == Fulfilled(projectId)
    ensures call.Thrown? ==> r.RejectedWith? && r.reason != ""
    ensures call.Thrown? && call.message != "" ==> r == RejectedWith(call.message)
    ensures call.Thrown? && call.message == "" ==> r == RejectedWith("Failed to delete project")
  {
    match call
    case Ok(_) => Fulfilled(projectId)
    case Thrown(m) => RejectedWith(MessageOr(m, "Failed to delete project"))
  }
}

=== FILE: records.dfy ===
/**
 * Plain-object records as the backend SDK takes and returns them, the
 * whitelist filter each service applies before a write, and the check each
 * service applies to a create or update response.
 */
module Records {
  import opened Values

  /** A plain object: keys are strings; a key may be present with `undefined`. */
  type Record = map<string, Value>

  /** `rec[key]`: `undefined` for a missing key. */
  function Get(rec: Record, key: string): Value {
    if key in rec then rec[key] else Undefined
  }

  /** The part of `rec` whose keys are named in `allowed`. */
  function Restrict(rec: Record, allowed: seq<string>): Record {
    map k | k in rec && k in allowed :: rec[k]
  }

  /**
   * The `getUpdateableFields` loop of every service: walk the keys of `rec`
   * and copy each one that `allowed` names.
   */
  method FilterFields(rec: Record, allowed: seq<string>) returns (filtered: Record)
    ensures filtered == Restrict(rec, allowed)
  {
    filtered := map[];
    var pending := rec.Keys;
    while pending != {}
      invariant pending <= rec.Keys
      invariant filtered == Restrict(rec - pending, allowed)
      decreases pending
    {
      var key :| key in pending;
      if key in allowed {
        filtered := filtered[key := rec[key]];
      }
      pending := pending - {key};
    }
    assert rec - pending == rec;
  }

  /** What `Restrict` keeps and drops, key by key. */
  lemma RestrictSpec(rec: Record, allowed: seq<string>)
    ensures forall k :: k in Restrict(rec, allowed) <==> k in rec && k in allowed
    ensures forall k :: k in Restrict(rec, allowed) ==> Restrict(rec, allowed)[k] == rec[k]
  {
  }

  /** Filtering an already filtered record changes nothing. */
  lemma RestrictIdempotent(rec: Record, allowed: seq<string>)
    ensures Restrict(Restrict(rec, allowed), allowed) == Restrict(rec, allowed)
  {
  }

  /** A record whose keys are all allowed passes the filter unchanged. */
  lemma RestrictKeepsAllowed(rec: Record, allowed: seq<string>)
    requires forall k :: k in rec ==> k in allowed
    ensures Restrict(rec, allowed) == rec
  {
  }

  /** One entry of a create or update response's `results`. */
  datatype ResultItem = ResultItem(data: Value)

  /** The SDK's reply to a create or update; `results` may be missing. */
  datatype Response = Response(success: Value, results: Option<seq<ResultItem>>)

  /** The reply to a fetch: its `data` may be missing. */
  datatype FetchResponse = FetchResponse(data: Value)

  /** A service call's outcome: a value, or an `Error` thrown with a message. */
  datatype Outcome<+T> = Ok(value: T) | Thrown(message: string)

  /**
   * `response && response.success && response.results &&
   *  response.results.length > 0`: the first result's data, or a thrown
   * error with `failure` as its message.
   */
  function FirstResultData(response: Option<Response>, failure: string): (r: Outcome<Value>)
    ensures r.Ok? <==>
      && response.Some?
      && Truthy(response.value.success)
      && response.value.results.Some?
      && |response.value.results.value| > 0
    ensures r.Ok? ==> r.value == response.value.results.value[0].data
    ensures r.Thrown? ==> r.message == failure
  {
    match response
    case None => Thrown(failure)
    case Some(Response(success, results)) =>
      if Truthy(success) && results.Some? && |results.value| > 0 then Ok(results.value[0].data)
      else Thrown(failure)
  }

  /**
   * `response && response.success`, what the delete services return: the
   * reply's `success` when there is a reply, and a falsy value when there is
   * none, so the result is truthy exactly when a reply reports success.
   */
  function DeleteResult(response: Option<Response>): (r: Value)
    ensures Truthy(r) <==> response.Some? && Truthy(response.value.success)
    ensures response.Some? ==> r == response.value.success
  {
    match response
    case None => Undefined
    case Some(reply) => reply.success
  }

  /** One filter condition of a fetch query. */
  datatype Condition = Condition(fieldName: string, operator: string, values: seq<Value>)

  /** Conditions joined by `operator` ("AND"). */
  datatype WhereGroup = WhereGroup(operator: string, conditions: seq<Condition>)

  datatype OrderBy = OrderBy(field: string, direction: string)

  /**
   * The parameters of a `fetchRecords` call; `where` and `whereGroups` are
   * None when the query object has no such property.
   */
  datatype Query = Query(
    fields: seq<string>,
    orderBy: seq<OrderBy>,
    expands: seq<string>,
    where: Option<seq<Condition>>,
    whereGroups: Option<seq<WhereGroup>>)
}

=== FILE: seqs.dfy ===
/**
 * `Array.prototype.filter` and what it guarantees: exactly the kept
 * elements, each as often as in the input, in their original order.
 */
module Seqs {

  /** `s.filter(keep)`. */
  function Filter<T>(s: seq<T>, keep: T -> bool): seq<T> {
    if s == [] then [] else Filter(s[..|s| - 1], keep) + (if keep(s[|s| - 1]) then [s[|s| - 1]] else [])
  }

  /**
   * `idx` picks, for every element of `r`, a position of `s` holding that
   * element, and the positions strictly increase: `r` is `s` with some
   * elements left out and the rest in their original order.
   */
  ghost predicate Embedding<T>(r: seq<T>, s: seq<T>, idx: seq<nat>) {
    && |idx| == |r|
    && (forall k :: 0 <= k < |idx| ==> idx[k] < |s| && r[k] == s[idx[k]])
    && (forall k, l :: 0 <= k < l < |idx| ==> idx[k] < idx[l])
  }

  lemma {:induction false} FilterMembers<T>(s: seq<T>, keep: T -> bool)
    ensures |Filter(s, keep)| <= |s|
    ensures forall x :: x in Filter(s, keep) <==> x in s && keep(x)
  {
    if s != [] {
      var init := s[..|s| - 1];
      FilterMembers(init, keep);
      assert s == init + [s[|s| - 1]];
    }
  }

  lemma {:induction false} FilterCounts<T>(s: seq<T>, keep: T -> bool)
    ensures forall x :: multiset(Filter(s, keep))[x] == if keep(x) then multiset(s)[x] else 0
  {
    if s != [] {
      var init := s[..|s| - 1];
      FilterCounts(init, keep);
      assert s == init + [s[|s| - 1]];
    }
  }

  /** An embedding into a prefix of `s` is an embedding into `s`. */
  lemma EmbeddingExtend<T>(r: seq<T>, s: seq<T>, n: nat, idx: seq<nat>)
    requires n <= |s| && Embedding(r, s[..n], idx)
    ensures Embedding(r, s, idx)
  {
    forall k | 0 <= k < |idx| ensures idx[k] < |s| && r[k] == s[idx[k]] {
      assert r[k] == s[..n][idx[k]];
    }
  }

  /** Appending the last element of `s` and its position keeps an embedding. */
  lemma EmbeddingSnoc<T>(r: seq<T>, s: seq<T>, idx: seq<nat>)
    requires s != [] && Embedding(r, s[..|s| - 1], idx)
    ensures Embedding(r + [s[|s| - 1]], s, idx + [|s| - 1])
  {
    EmbeddingExtend(r, s, |s| - 1, idx);
  }

  lemma {:induction false} FilterOrder<T>(s: seq<T>, keep: T -> bool) returns (idx: seq<nat>)
    ensures Embedding(Filter(s, keep), s, idx)
  {
    if s == [] {
      idx := [];
    } else {
      var init := s[..|s| - 1];
      var r := Filter(init, keep);
      idx := FilterOrder(init, keep);
      if keep(s[|s| - 1]) {
        assert Filter(s, keep) == r + [s[|s| - 1]];
        EmbeddingSnoc(r, s, idx);
        idx := idx + [|s| - 1];
      } else {
        assert Filter(s, keep) == r;
        EmbeddingExtend(r, s, |s| - 1, idx);
      }
    }
  }

  /** A filter that keeps every element returns its input. */
  lemma {:induction false} FilterKeepsAll<T>(s: seq<T>, keep: T -> bool)
    requires forall x :: x in s ==> keep(x)
    ensures Filter(s, keep) == s
  {
    if s != [] {
      var init := s[..|s| - 1];
      assert forall x :: x in init ==> x in s;
      FilterKeepsAll(init, keep);
      assert s == init + [s[|s| - 1]];
    }
  }

  /** Filtering a concatenation filters each part in turn. */
  lemma {:induction false} FilterAppend<T>(a: seq<T>, b: seq<T>, keep: T -> bool)
    ensures Filter(a + b, keep) == Filter(a, keep) + Filter(b, keep)
  {
    if b == [] {
      assert a + b == a;
    } else {
      var init := b[..|b| - 1];
      FilterAppend(a, init, keep);
      assert (a + b)[..|a + b| - 1] == a + init;
      assert (a + b)[|a + b| - 1] == b[|b| - 1];
    }
  }
}

=== FILE: task_service.dfy ===
/**
 * The task service (src/services/taskService.js): the records it sends
 * when creating and updating a task, the fields it lets through, the fetch
 * query, and how it reads the SDK's replies.
 */
module TaskService {
  import opened Values
  import opened Records

  /** The fields of the task table a write may set. */
  const UpdateableFields: seq<string> :=
    ["Name", "Tags", "Owner", "title", "description", "status", "dueDate", "priority", "assignee", "project"]

  const DefaultStatus := "Not Started"
  const DefaultPriority := "Medium"
  const CreateFailure := "Failed to create task"
  const UpdateFailure := "Failed to update task"

  /** The columns every task fetch asks for. */
  const FetchedFields: seq<string> :=
    ["Name", "Tags", "Owner", "CreatedOn", "CreatedBy", "ModifiedOn", "ModifiedBy",
     "title", "description", "status", "dueDate", "priority", "assignee", "project"]

  /** `getUpdateableFields`: keep exactly the whitelisted keys, values unchanged. */
  method GetUpdateableFields(task: Record) returns (filtered: Record)
    ensures forall k :: k in filtered <==> k in task && k in UpdateableFields
    ensures forall k :: k in filtered ==> filtered[k] == task[k]
    ensures "Id" !in filtered && "CreatedOn" !in filtered
  {
    filtered := FilterFields(task, UpdateableFields);
  }

  /** The record `createTask` builds from the form data before filtering it. */
  function MappedNewTask(taskData: Record): (r: Record)
    ensures r.Keys == {"Name", "title", "description", "status", "dueDate", "priority", "assignee", "project"}
    ensures r["Name"] == r["title"] == Get(taskData, "title")
    ensures r["project"] == Get(taskData, "projectId")
    ensures r["status"] == if Truthy(Get(taskData, "status")) then Get(taskData, "status") else Str(DefaultStatus)
    ensures r["priority"] == if Truthy(Get(taskData, "priority")) then Get(taskData, "priority") else Str(DefaultPriority)
    ensures forall k :: k in {"description", "dueDate", "assignee"} ==> r[k] == Get(taskData, k)
  {
    map[
      "Name" := Get(taskData, "title"),
      "title" := Get(taskData, "title"),
      "description" := Get(taskData, "description"),
      "status" := Or(Get(taskData, "status"), Str(DefaultStatus)),
      "dueDate" := Get(taskData, "dueDate"),
      "priority" := Or(Get(taskData, "priority"), Str(DefaultPriority)),
      "assignee" := Get(taskData, "assignee"),
      "project" := Get(taskData, "projectId")
    ]
  }

  /** The record `updateTask` builds before filtering it: no defaults, and `Id` first. */
  function MappedTaskUpdate(taskId: Value, taskData: Record): (r: Record)
    ensures r.Keys == {"Id", "Name", "project", "title", "description", "status", "dueDate", "priority", "assignee"}
    ensures r["Id"] == taskId
    ensures r["Name"] == r["title"] == Get(taskData, "title")
    ensures r["project"] == Get(taskData, "projectId")
    ensures forall k :: k in {"description", "status", "dueDate", "priority", "assignee"} ==> r[k] == Get(taskData, k)
  {
    map[
      "Id" := taskId,
      "Name" := Get(taskData, "title"),
      "project" := Get(taskData, "projectId"),
      "title" := Get(taskData, "title"),
      "description" := Get(taskData, "description"),
      "status" := Get(taskData, "status"),
      "dueDate" := Get(taskData, "dueDate"),
      "priority" := Get(taskData, "priority"),
      "assignee" := Get(taskData, "assignee")
    ]
  }

  /** `createTask`: the record sent to the SDK and the created record's data. */
  method CreateTask(taskData: Record, response: Option<Response>)
    returns (sent: Record, created: Outcome<Value>)
    ensures sent == MappedNewTask(taskData)
    ensures created.Ok? <==>
      response.Some? && Truthy(response.value.success) &&
      response.value.results.Some? && |response.value.results.value| > 0
    ensures created.Ok? ==> created.value == response.value.results.value[0].data
    ensures created.Thrown? ==> created.message == CreateFailure
  {
    var mapped := MappedNewTask(taskData);
    sent := GetUpdateableFields(mapped);
    RestrictKeepsAllowed(mapped, UpdateableFields);
    created := FirstResultData(response, CreateFailure);
  }

  /**
   * `updateTask`: the filter drops `Id` (it is not whitelisted) and the
   * service then puts it back, so the record sent always names the task.
   */
  method UpdateTask(taskId: Value, taskData: Record, response: Option<Response>)
    returns (sent: Record, updated: Outcome<Value>)
    ensures "Id" in sent && sent["Id"] == taskId
    ensures sent == MappedTaskUpdate(taskId, taskData)
    ensures sent["status"] == Get(taskData, "status") && sent["priority"] == Get(taskData, "priority")
    ensures updated.Ok? <==>
      response.Some? && Truthy(response.value.success) &&
      response.value.results.Some? && |response.value.results.value| > 0
    ensures updated.Ok? ==> updated.value == response.value.results.value[0].data
    ensures updated.Thrown? ==> updated.message == UpdateFailure
  {
    var mapped := MappedTaskUpdate(taskId, taskData);
    sent := GetUpdateableFields(mapped);
    sent := sent["Id" := taskId];
    assert sent == mapped;
    updated := FirstResultData(response, UpdateFailure);
  }

  /**
   * The query `fetchTasks` sends: newest first, the project expanded, and
   * an exact-match condition on `project` only when a project id is given.
   */
  method FetchTasksQuery(filters: Record) returns (params: Query)
    ensures params.fields == FetchedFields
    ensures forall f :: f in UpdateableFields ==> f in params.fields
    ensures params.orderBy == [OrderBy("CreatedOn", "DESC")]
    ensures params.expands == ["project"]
    ensures params.whereGroups == None
    ensures params.where.Some? <==> Truthy(Get(filters, "projectId"))
    ensures params.where.Some? ==>
      params.where.value == [Condition("project", "ExactMatch", [Get(filters, "projectId")])]
  {
    params := Query(FetchedFields, [OrderBy("CreatedOn", "DESC")], ["project"], None, None);
    if Truthy(Get(filters, "projectId")) {
      params := params.(where := Some([Condition("project", "ExactMatch", [Get(filters, "projectId")])]));
    }
  }
}

=== FILE: text.dfy ===
/**
 * The string operations the project form relies on: `trim`, `split(',')`,
 * `join`, and the decimal rendering of numbers in the dashboard's texts.
 */
module Text {
  import Seqs

  /** The characters `String.prototype.trim` removes: ECMAScript white space and line terminators. */
  const Spaces: set<char> := {
    ' ', '\t', '\n', '\r', '\U{000B}', '\U{000C}', '\U{00A0}', '\U{1680}',
    '\U{2000}', '\U{2001}', '\U{2002}', '\U{2003}', '\U{2004}', '\U{2005}',
    '\U{2006}', '\U{2007}', '\U{2008}', '\U{2009}', '\U{200A}',
    '\U{2028}', '\U{2029}', '\U{202F}', '\U{205F}', '\U{3000}', '\U{FEFF}'}

  predicate IsSpace(c: char) {
    c in Spaces
  }

  function TrimStart(s: string): string {
    if s != [] && IsSpace(s[0]) then TrimStart(s[1..]) else s
  }

  function TrimEnd(s: string): string {
    if s != [] && IsSpace(s[|s| - 1]) then TrimEnd(s[..|s| - 1]) else s
  }


  /** No white space at either end. */
  predicate Trimmed(s: string) {
    s == [] || (!IsSpace(s[0]) && !IsSpace(s[|s| - 1]))
  }

  /** Trimming the front drops a run of white space and keeps the rest. */
  lemma {:induction false} TrimStartSuffix(s: string)
    ensures |TrimStart(s)| <= |s| && TrimStart(s) == s[|s| - |TrimStart(s)|..]
    ensures forall k :: 0 <= k < |s| - |TrimStart(s)| ==> IsSpace(s[k])
  {
    if s != [] && IsSpace(s[0]) {
      var t := s[1..];
      TrimStartSuffix(t);
      var cut := |t| - |TrimStart(t)|;
      assert s[cut + 1..] == t[cut..];
      forall k | 0 <= k < cut + 1 ensures IsSpace(s[k]) {
        if k > 0 {
          assert s[k] == t[k - 1];
        }
      }
    }
  }

  /** What trimming the front leaves does not start with white space. */
  lemma {:induction false} TrimStartFront(s: string)
    ensures TrimStart(s) == [] || !IsSpace(TrimStart(s)[0])
  {
    if s != [] && IsSpace(s[0]) {
      TrimStartFront(s[1..]);
    }
  }

  /** Trimming the end drops a run of white space and keeps the rest. */
  lemma {:induction false} TrimEndPrefix(s: string)
    ensures |TrimEnd(s)| <= |s| && TrimEnd(s) == s[..|TrimEnd(s)|]
    ensures forall k :: |TrimEnd(s)| <= k < |s| ==> IsSpace(s[k])
    ensures TrimEnd(s) == [] || !IsSpace(TrimEnd(s)[|TrimEnd(s)| - 1])
  {
    if s != [] && IsSpace(s[|s| - 1]) {
      TrimEndPrefix(s[..|s| - 1]);
    }
  }

  /** `s.trim()`: no white space at either end, and no longer than `s`. */
  function Trim(s: string): (r: string)
    ensures Trimmed(r) && |r| <= |s|
  {
    TrimStartFront(s);
    TrimStartSuffix(s);
    TrimEndPrefix(TrimStart(s));
    TrimEnd(TrimStart(s))
  }

  /** A prefix of a suffix of `s` is a slice of `s`, and what follows the prefix follows the slice. */
  lemma SliceOfSuffix(s: string, i: nat, t: string, m: nat)
    requires i <= |s| && t == s[i..] && m <= |t|
    requires forall k :: m <= k < |t| ==> IsSpace(t[k])
    ensures t[..m] == s[i..i + m]
    ensures forall k :: i + m <= k < |s| ==> IsSpace(s[k])
  {
    forall k | i + m <= k < |s| ensures IsSpace(s[k]) {
      assert s[k] == t[k - i];
    }
  }

  /** Trimming cuts `s` down to a slice `s[i..j]` with only white space outside it. */
  lemma TrimSlice(s: string) returns (i: nat, j: nat)
    ensures i <= j <= |s| && Trim(s) == s[i..j]
    ensures forall k :: 0 <= k < i ==> IsSpace(s[k])
    ensures forall k :: j <= k < |s| ==> IsSpace(s[k])
  {
    var t := TrimStart(s);
    TrimStartSuffix(s);
    i := |s| - |t|;
    var r := TrimEnd(t);
    TrimEndPrefix(t);
    j := i + |r|;
    SliceOfSuffix(s, i, t, |r|);
    assert r == t[..|r|];
    assert t[..|r|] == s[i..j];
  }

  /** A string without white space at its ends is its own trim. */
  lemma TrimTrimmed(s: string)
    requires Trimmed(s)
    ensures Trim(s) == s
  {
  }

  /**
   * Trimming removes white space at both ends and nothing else: the result
   * is a slice `s[i..j]` with only white space outside it, and a string
   * without white space at its ends is left as it is.
   */
  lemma TrimSpec(s: string)
    ensures Trimmed(Trim(s))
    ensures Trimmed(s) ==> Trim(s) == s
    ensures exists i, j ::
      (0 <= i <= j <= |s| && Trim(s) == s[i..j] &&
       forall k :: 0 <= k < |s| && (k < i || j <= k) ==> IsSpace(s[k]))
  {
    var i, j := TrimSlice(s);
    if Trimmed(s) {
      TrimTrimmed(s);
    }
  }

  /** A string is blank after trimming exactly when it is all white space. */
  lemma TrimBlank(s: string)
    ensures Trim(s) == "" <==> forall k :: 0 <= k < |s| ==> IsSpace(s[k])
  {
    TrimSpec(s);
    var i, j :|
      (0 <= i <= j <= |s| && Trim(s) == s[i..j] &&
       forall k :: 0 <= k < |s| && (k < i || j <= k) ==> IsSpace(s[k]));
  }

  /** `trim` ignores one leading white-space character. */
  lemma TrimLeadingSpace(c: char, s: string)
    requires IsSpace(c)
    ensures Trim([c] + s) == Trim(s)
  {
    assert ([c] + s)[1..] == s;
  }

  /** `s.split(',')`: the pieces between commas, from left to right. */
  function Split(s: string): (parts: seq<string>)
    ensures |parts| >= 1
  {
    if s == [] then [""]
    else
      var rest := Split(s[1..]);
      if s[0] == ',' then [""] + rest else [[s[0]] + rest[0]] + rest[1..]
  }

  /** `parts.join(sep)`: the text starts with the first part. */
  function Join(parts: seq<string>, sep: string): (r: string)
    ensures |parts| >= 1 ==> |r| >= |parts[0]| && r[..|parts[0]|] == parts[0]
  {
    if parts == [] then ""
    else if |parts| == 1 then parts[0]
    else parts[0] + sep + Join(parts[1..], sep)
  }

  /** A comma-free prefix joins the first piece of what follows it. */
  lemma {:induction false} SplitCommaFreePrefix(a: string, b: string)
    requires ',' !in a
    ensures Split(a + b) == [a + Split(b)[0]] + Split(b)[1..]
  {
    if a == [] {
      assert a + b == b && a + Split(b)[0] == Split(b)[0];
      assert Split(b) == [Split(b)[0]] + Split(b)[1..];
    } else {
      assert a[0] in a;
      assert ',' !in a[1..] by {
        forall c | c in a[1..] ensures c in a { }
      }
      SplitCommaFreePrefix(a[1..], b);
      var ab := a + b;
      assert ab[0] == a[0] && ab[1..] == a[1..] + b;
      var rest := Split(ab[1..]);
      assert Split(ab) == [[a[0]] + rest[0]] + rest[1..];
      assert [a[0]] + (a[1..] + Split(b)[0]) == a + Split(b)[0];
    }
  }

  /** A leading comma closes an empty first piece. */
  lemma SplitLeadingComma(b: string)
    ensures Split("," + b) == [""] + Split(b)
  {
    assert ("," + b)[1..] == b;
  }

  /** Splitting gives one more piece than there are commas. */
  lemma {:induction false} SplitCount(s: string)
    ensures |Split(s)| == multiset(s)[','] + 1
  {
    if s != [] {
      SplitCount(s[1..]);
      assert s == [s[0]] + s[1..];
      assert multiset(s) == multiset([s[0]]) + multiset(s[1..]);
    }
  }

  /** No piece holds a comma. */
  lemma {:induction false} SplitCommaFree(s: string)
    ensures forall p :: p in Split(s) ==> ',' !in p
  {
    if s != [] {
      var rest := Split(s[1..]);
      SplitCommaFree(s[1..]);
      if s[0] != ',' {
        var first := [s[0]] + rest[0];
        assert rest[0] in rest;
        forall p | p in Split(s) ensures ',' !in p {
          if p != first {
            assert p in rest[1..];
            assert p in rest;
          }
        }
      }
    }
  }

  /** Joining the pieces with commas gives back the input. */
  lemma {:induction false} SplitJoin(s: string)
    ensures Join(Split(s), ",") == s
  {
    if s != [] {
      var rest := Split(s[1..]);
      SplitJoin(s[1..]);
      if s[0] == ',' {
        assert Join(Split(s), ",") == "" + "," + Join(rest, ",");
        assert s == [s[0]] + s[1..];
      } else {
        var first := [s[0]] + rest[0];
        if |rest| == 1 {
          assert Join(Split(s), ",") == first;
        } else {
          assert Join(Split(s), ",") == first + "," + Join(rest[1..], ",");
          assert Join(rest, ",") == rest[0] + "," + Join(rest[1..], ",");
        }
        assert s == [s[0]] + s[1..];
      }
    }
  }

  /** `parts.map(p => p.trim())`: one trimmed piece per piece. */
  function TrimAll(parts: seq<string>): (r: seq<string>)
    ensures |r| == |parts|
  {
    if parts == [] then [] else [Trim(parts[0])] + TrimAll(parts[1..])
  }

  /** The truthiness test `filter(member => member)` applies to a string. */
  function IsNonEmpty(s: string): bool {
    s != ""
  }

  /** `text.split(',').map(m => m.trim()).filter(m => m)`: no empty name, at most one per piece. */
  function ParseNames(text: string): (names: seq<string>)
    ensures forall n :: n in names ==> n != ""
    ensures |names| <= |Split(text)|
  {
    Seqs.FilterMembers(TrimAll(Split(text)), IsNonEmpty);
    Seqs.Filter(TrimAll(Split(text)), IsNonEmpty)
  }

  lemma {:induction false} TrimAllTrimmed(parts: seq<string>)
    ensures forall p :: p in TrimAll(parts) ==> Trimmed(p)
  {
    if parts != [] {
      TrimAllTrimmed(parts[1..]);
    }
  }

  /**
   * The parsed names are non-empty and trimmed, there are at most one more
   * of them than commas, they keep the order of the input (`idx` gives each
   * name's piece), and every non-empty trimmed piece is kept as often as it
   * occurs.
   */
  lemma ParseNamesSpec(text: string) returns (idx: seq<nat>)
    ensures forall n :: n in ParseNames(text) ==> n != "" && Trimmed(n)
    ensures |ParseNames(text)| <= multiset(text)[','] + 1
    ensures Seqs.Embedding(ParseNames(text), TrimAll(Split(text)), idx)
    ensures forall n :: multiset(ParseNames(text))[n] == if n != "" then multiset(TrimAll(Split(text)))[n] else 0
  {
    var pieces := TrimAll(Split(text));
    SplitCount(text);
    TrimAllTrimmed(Split(text));
    Seqs.FilterMembers(pieces, IsNonEmpty);
    Seqs.FilterCounts(pieces, IsNonEmpty);
    idx := Seqs.FilterOrder(pieces, IsNonEmpty);
  }

  /** A name list fit for the round trip: non-empty, trimmed, comma-free names. */
  predicate CleanNames(names: seq<string>) {
    forall n :: n in names ==> n != "" && Trimmed(n) && ',' !in n
  }

  lemma {:induction false} TrimAllSplitJoin(names: seq<string>)
    requires |names| >= 1 && CleanNames(names)
    ensures TrimAll(Split(Join(names, ", "))) == names
  {
    TrimTrimmed(names[0]);
    if |names| == 1 {
      SplitCommaFreePrefix(names[0], "");
      assert names[0] + "" == names[0];
    } else {
      var rest := names[1..];
      var tail := Join(rest, ", ");
      assert CleanNames(rest) by {
        forall n | n in rest ensures n in names { }
      }
      TrimAllSplitJoin(rest);
      assert Join(names, ", ") == names[0] + ("," + (" " + tail));
      SplitCommaFreePrefix(names[0], "," + (" " + tail));
      var after := Split(" " + tail);
      SplitLeadingComma(" " + tail);
      assert names[0] + "" == names[0];
      assert Split(Join(names, ", ")) == [names[0]] + after;
      assert (" " + tail)[1..] == tail;
      assert after == [" " + Split(tail)[0]] + Split(tail)[1..];
      TrimLeadingSpace(' ', Split(tail)[0]);
      assert TrimAll(after) == TrimAll(Split(tail));
      assert TrimAll([names[0]] + after) == [Trim(names[0])] + TrimAll(after);
    }
  }

  /**
   * Joining clean names with ", " and parsing the text gives back exactly
   * the same list.
   */
  lemma ParseJoinRoundTrip(names: seq<string>)
    requires CleanNames(names)
    ensures ParseNames(Join(names, ", ")) == names
  {
    if names == [] {
      assert Split("") == [""];
      assert TrimAll([""]) == [Trim("")];
      assert Seqs.Filter([""], IsNonEmpty) == Seqs.Filter([], IsNonEmpty) + [];
    } else {
      TrimAllSplitJoin(names);
      Seqs.FilterKeepsAll(names, IsNonEmpty);
    }
  }

  /** The decimal digits of `n`. */
  function NatToString(n: nat): string {
    if n < 10 then ["0123456789"[n]] else NatToString(n / 10) + ["0123456789"[n % 10]]
  }

  /** `${i}` for an integer. */
  function IntToString(i: int): string {
    if i < 0 then "-" + NatToString(-i) else NatToString(i)
  }

  predicate IsDigit(c: char) {
    '0' <= c <= '9'
  }

  predicate AllDigits(s: string) {
    forall k :: 0 <= k < |s| ==> IsDigit(s[k])
  }

  /** The number a string of decimal digits denotes. */
  function DigitsValue(s: string): nat
    requires AllDigits(s)
  {
    if s == [] then 0 else 10 * DigitsValue(s[..|s| - 1]) + (s[|s| - 1] as int - '0' as int)
  }

  /**
   * `${n}` for a whole number: a non-empty string of decimal digits without a
   * leading zero that denotes `n`.
   */
  lemma {:induction false} NatToStringValue(n: nat)
    ensures NatToString(n) != "" && AllDigits(NatToString(n))
    ensures n >= 10 ==> NatToString(n)[0] != '0'
    ensures DigitsValue(NatToString(n)) == n
  {
    var s := NatToString(n);
    if n < 10 {
      assert s[..0] == "";
    } else {
      NatToStringValue(n / 10);
      assert s[..|s| - 1] == NatToString(n / 10);
    }
  }

  /**
   * `${i}` for an integer: a minus sign exactly for a negative number,
   * followed by the digits of its magnitude.
   */
  lemma IntToStringValue(i: int)
    ensures IntToString(i) != "" && (IntToString(i)[0] == '-' <==> i < 0)
    ensures i >= 0 ==> AllDigits(IntToString(i)) && DigitsValue(IntToString(i)) == i
    ensures i < 0 ==> AllDigits(IntToString(i)[1..]) && DigitsValue(IntToString(i)[1..]) == -i
  {
    var m := if i < 0 then -i else i;
    var digits := NatToString(m);
    NatToStringValue(m);
    assert IsDigit(digits[0]);
    if i < 0 {
      assert IntToString(i) == "-" + digits;
      assert IntToString(i)[1..] == digits;
    } else {
      assert IntToString(i) == digits;
    }
  }

  /** Each piece of `map(m => m.trim())` is the trimmed piece at its place. */
  lemma {:induction false} TrimAllEach(parts: seq<string>)
    ensures forall i :: 0 <= i < |parts| ==> TrimAll(parts)[i] == Trim(parts[i])
  {
    if parts != [] {
      TrimAllEach(parts[1..]);
    }
  }
}

=== FILE: values.dfy ===
/**
 * JavaScript values as the application's records carry them, and the
 * coercions (truthiness, `||` defaults, numeric comparison) that the
 * services, the store and the dashboard apply to them.
 */
module Values {

  datatype Option<+T> = None | Some(value: T)

  /**
   * A field value. Numbers are integers. `Date(day)` is a date (a `Date`
   * object or a date string the browser can parse) already resolved to an
   * integer day number, the day starting at `Midnight(day)`; `Str` is any
   * other string; `List` is an array.
   */
  datatype Value =
    | Undefined
    | Null
    | Bool(b: bool)
    | Num(n: int)
    | Str(s: string)
    | Date(day: int)
    | List(items: seq<Value>)

  /** `1000 * 60 * 60 * 24`: the milliseconds in a day. */
  const MsPerDay := 86_400_000

  /** The instant, in milliseconds since the epoch, at which day `day` begins. */
  function Midnight(day: int): int {
    day * MsPerDay
  }

  /** JavaScript truthiness: an array is truthy even when it is empty. */
  predicate Truthy(v: Value) {
    match v
    case Undefined => false
    case Null => false
    case Bool(b) => b
    case Num(n) => n != 0
    case Str(s) => s != ""
    case Date(_) => true
    case List(_) => true
  }

  /** The JavaScript expression `v || fallback`. */
  function Or(v: Value, fallback: Value): Value {
    if Truthy(v) then v else fallback
  }

  /**
   * The number a relational operator (`<`, `>`) compares a primitive `v` as,
   * or None for NaN. `undefined` is NaN, `null` and `''` are 0, booleans are
   * 0 and 1. Dates and lists, which JavaScript compares through their
   * millisecond value and their joined text, are taken as NaN here.
   */
  function ToNumber(v: Value): Option<int> {
    match v
    case Undefined => None
    case Null => Some(0)
    case Bool(b) => Some(if b then 1 else 0)
    case Num(n) => Some(n)
    case Str(s) => if s == "" then Some(0) else None
    case Date(_) => None
    case List(_) => None
  }

  /** The JavaScript comparison `v < bound`; NaN compares false. */
  predicate LessThan(v: Value, bound: int) {
    match ToNumber(v)
    case Some(x) => x < bound
    case None => false
  }

  /**
   * A count read as `v || 0` and then added to a number: a number is
   * itself, `true` adds 1 and every falsy value adds 0.
   */
  function CountOf(v: Value): (r: int)
    ensures !Truthy(v) ==> r == 0
    ensures v.Num? ==> r == v.n
    ensures v == Bool(true) ==> r == 1
  {
    match v
    case Num(n) => n
    case Bool(b) => if b then 1 else 0
    case _ => 0
  }
}
